=== FILE: README.md ===
# multiproc — a verified model of its deterministic core

`multiproc` is a command-line tool that runs many variants of one shell
command in parallel. A variant is formed by substituting numbers for the
placeholders `%0` … `%9` in the command template. The numbers come from
range specs such as `4`, `2:5` or `0:10:2`, and the tool runs every
combination of them. Each variant's output goes to its own file,
`mp_<v0>_<v1>….out`. A thread pool runs the jobs. The pool is sized from
`-j`, or from the CPU count when `-j` is 0. A logger process appends
timestamped messages to a log file until it receives the sentinel
message `kill`. While a run is active, the tool keeps its own process id
in a registry file, one id per line.

This project models the deterministic core of `src/multiproc.py` as pure
Dafny functions and proves properties about it:

| module | models |
|---|---|
| `RangeSpec` | `modifier_to_range`: parsing one range spec into the numbers it denotes |
| `CartesianProduct` | `itertools.product` over the decoded ranges, first range outermost |
| `Substitution` | the loop in `gen_cmds` that calls `str.replace("%i", str(v))` once per placeholder |
| `Variants` | `gen_cmds`: each variant's command and output-file name |
| `Pool` | the job count (`math.prod` of the range lengths) and the pool size (`min(-j or cpu_count, jobs)`) |
| `Callback` | `callback`: the two log messages sent when a job finishes |
| `LogAggregator` | `logger`: the text appended to the log file, as a function of the message sequence |
| `Registry` | `add_pid` / `remove_pid`: the registry file as text, read with `readlines` and `int`, and `list.remove` on the ids read |
| `Text`, `Numerals`, `Seqs`, `Wrappers` | the Python built-ins the core relies on: `str.replace`, `str.split`, `str.join`, `readlines`, `str(int)`, `int(str)`, `list.index`, plus `Option` and `Result` |

Where Python raises an exception, the model returns an error value
instead: `Result.Err` or `Option.None`. The exceptions it does not
model are named under "Left out". Inputs that come from outside the
process are parameters. These are the CPU count, the timestamp string
and the current contents of the registry file (`None` when the file does
not exist).

Three behaviours of the code worth knowing:

- Placeholder substitution is the naive sequence of `str.replace` calls,
  not a token-aware substitution. Because of this, `%1` also matches
  inside `%10`, and a `%%` can lose a character to an earlier
  replacement. `Substitution.SubstituteMatchesTokens` gives a condition
  (no `%%` in the template, at most ten slots) under which the replace
  loop and a token-aware substitution agree.
- `remove_pid` converts every line of the registry with `int`, so a
  blank or malformed line makes it fail. It does not skip such lines.
- A range spec with more than three parts calls `error(...)`, which is
  an undefined name, so the call raises `NameError`. The model returns
  `Err(TooManyParts)` for that case. The final `return range(0)` can
  never be reached, because `split` always returns at least one part.

## Model

| member | source | states |
|---|---|---|
| RangeSpec.DecodeSpec | src/multiproc.py:258-270 | a spec decodes iff every `:`-separated part passes `int()`, there are at most three parts, and a third part is not 0 |
| RangeSpec.PyRange | src/multiproc.py:263-266 | `range(start, stop, step)` with a non-zero step is the arithmetic progression from `start` that stays strictly on the near side of `stop` and cannot be extended by another step |
| RangeSpec.DecodeCount | src/multiproc.py:262-263 | any spec whose single part `int()` reads as `n` denotes `1, 2, …, n` (empty when n < 1) |
| RangeSpec.DecodeBounds | src/multiproc.py:264-266 | any spec whose two parts read as `a`, `b` denotes `a, a+1, …, b` inclusive |
| RangeSpec.DecodeStepped | src/multiproc.py:264-266 | any spec whose three parts read as `a`, `b`, `s` with s > 0 is the progression from `a` in steps of `s` up to and including `b` when it is hit |
| RangeSpec.DecodeNegativeStep | src/multiproc.py:264-266 | parts `a`, `b`, `s` with s < 0 count down from `a` but stop before `b + 1`, because the code adds 1 to the stop whatever the sign of the step |
| RangeSpec.NegativeStepDropsEnd | src/multiproc.py:265-266 | `5:1:-1` gives `[5, 4, 3]`: the two values `2` and `1` are lost |
| RangeSpec.DecodeZeroStep | src/multiproc.py:266 | a spec whose third part reads as 0 is rejected (`range` raises `ValueError`) |
| RangeSpec.DecodeTooManyParts | src/multiproc.py:267-268 | any spec with four or more integer parts is rejected |
| RangeSpec.DecodeRejectsNonInteger | src/multiproc.py:259 | a spec fails as "not an integer" exactly when one of its `:`-separated parts fails `int()`, and the error names the first such part |
| RangeSpec.DecodeEmpty | src/multiproc.py:259 | the empty spec is rejected, because `int("")` fails |
| RangeSpec.DecodedDistinct | src/multiproc.py:258-270 | a decoded range never repeats a value |
| RangeSpec.DecodeInclusiveStepped | src/multiproc.py:264-266 | the corrected decoder includes `b` for either sign of the step when the progression hits it |
| RangeSpec.InclusiveNegativeStep | src/multiproc.py:264-266 | with the correction, `5:1:-1` gives `[5, 4, 3, 2, 1]` |
| RangeSpec.InclusiveAgreesOnPositiveSteps | src/multiproc.py:262-268 | the correction changes nothing except specs with three parts and a negative step |
| CartesianProduct.Product | src/multiproc.py:124 | the product has as many tuples as the product of the range lengths (its contents: `ProductIndex`, `ProductMembership`) |
| CartesianProduct.ProdLenZero | src/multiproc.py:168-171 | the product of the range lengths is 0 iff some range is empty |
| CartesianProduct.ProductIndex | src/multiproc.py:124 | tuple `a·n + b` is the first range's `a`-th value followed by the `b`-th tuple of the remaining ranges (the first range varies slowest) |
| CartesianProduct.ProductMembership | src/multiproc.py:124 | a tuple is generated iff its i-th value is in the i-th range, for every i |
| CartesianProduct.ProductDistinct | src/multiproc.py:124 | ranges without repeats give tuples without repeats |
| Substitution.SubstituteMatchesTokens | src/multiproc.py:129-132 | with no `%%` in the template and at most ten ranges, the replace loop equals a single left-to-right pass that swaps each `%d` token for its value |
| Substitution.ReplaceLoopMatchesTokens | src/multiproc.py:131-132 | after the first i replacements, slots below i hold their values and later slots still show their placeholder |
| Substitution.Substitute | src/multiproc.py:129-132 | a template in which none of the placeholders occurs comes back unchanged (what it does otherwise: `SubstituteMatchesTokens`, `ReplaceLoopMatchesTokens`) |
| Substitution.SubstituteIdempotent | src/multiproc.py:129-132 | for templates without `%%`, substituting an already substituted command again changes nothing |
| Substitution.NotIdempotentWithDoublePercent | src/multiproc.py:129-132 | with `%%` it can change: `%%1` with `[5, 0]` becomes `%0`, and substituting that again gives `5` |
| Substitution.SubstituteNoPlaceholders | src/multiproc.py:129-132 | a template that contains none of the placeholders comes back unchanged |
| Substitution.ValueTextHasNoMarker | src/multiproc.py:130 | the text of an inserted value never contains `%`, so it cannot form a later placeholder |
| Substitution.SlotOneInsideTen | src/multiproc.py:131-132 | `%10` with values `[5, 3]` becomes `30`: the replacement for `%1` also matches inside `%10` |
| Substitution.DoublePercentConsumesValue | src/multiproc.py:131-132 | `%%0` with values `[1, 7]` becomes `7`, while the single-pass reading gives `%1` |
| Variants.GenCmds | src/multiproc.py:115-134 | without modifiers there is exactly one variant, the command as given with output `mp.out`; with modifiers it fails exactly when there are more than ten |
| Variants.GenCmdsCount | src/multiproc.py:122-126 | with at most ten ranges there is one variant per tuple of the product |
| Variants.GenCmdsVariant | src/multiproc.py:126-134 | the k-th variant is the template with the k-th tuple substituted, and its output name decodes back to that tuple |
| Variants.GenCmdsCoverProduct | src/multiproc.py:124-134 | a tuple has a variant iff it lies in the ranges |
| Variants.GenCmdsDistinctNames | src/multiproc.py:127-134 | ranges without repeats give pairwise distinct output file names |
| Variants.GenCmdsCommandsAreTokenSubstitutions | src/multiproc.py:129-132 | with no `%%` in the template, every command is the single-pass substitution of its tuple |
| Variants.GenCmdsWithoutPlaceholders | src/multiproc.py:129-132 | a template without placeholders gives every variant the same command |
| Variants.OutName | src/multiproc.py:127-134 | an output name starts with `mp` and ends with `.out` (its partner is `OutNameRoundTrip`) |
| Variants.OutNameRoundTrip | src/multiproc.py:127 | `mp_<v0>_<v1>….out` decodes back to the values it was built from |
| Variants.OutNameInjective | src/multiproc.py:127 | different tuples never share an output file name |
| Pool.NumJobs | src/multiproc.py:168-171 | without modifiers there is one job; with modifiers the job count is 0 iff some range is empty (its partner is `JobCountMatchesVariants`; the `len()` overflow is checked in `PlanRun`) |
| Pool.PoolSize | src/multiproc.py:195-197 | the pool size is the smaller of the job count and the request (`-j`, or the CPU count when `-j` is 0) |
| Pool.PoolHonoursRequest | src/multiproc.py:195-197 | a positive `-j` no larger than the job count is used as is |
| Pool.PlanRun | src/multiproc.py:167-198 | the run stops, in this order, on a non-ASCII command (`bytes(..., "ascii")` raises), on a range longer than `sys.maxsize` (`len()` raises), on a pool below one worker, and on a generation failure, and on nothing else; otherwise its pool has between one worker and one per job, its pool size and job count are the ones `PoolSize` and `NumJobs` compute, and its jobs are exactly the generated variants |
| Pool.HugeCountStopsRun | src/multiproc.py:171 | a count spec of `2^63` decodes, but its range is too long for `len()`, so the run stops with `RangeTooLong` |
| Pool.JobCountMatchesVariants | src/multiproc.py:168-171 | the job count computed up front equals the number of variants generated |
| Pool.EmptyRangeStopsRun | src/multiproc.py:171 | an empty range makes the job count 0, so the run fails at pool creation |
| Pool.DecodedSpecsGiveDistinctOutputs | src/multiproc.py:279-280 | when every range comes from a range spec on the command line (at most ten), generation succeeds and no two jobs share an output file name |
| Callback.Classify | src/multiproc.py:108-113 | a job is reported killed iff it was killed by hand, succeeded iff it was not and its return code is 0, and otherwise failed with its return code |
| Callback.CallbackMessages | src/multiproc.py:104-113 | a finished job produces exactly two messages, both headed `<pid:P> ` |
| Callback.CallbackText | src/multiproc.py:107-113 | the first message reports the elapsed time; the second reports a manual kill before looking at the return code, then success for 0, then failure quoting the code (`None` included) |
| Callback.VerdictRoundTrip | src/multiproc.py:108-113 | each outcome line reads back as the outcome it was written from |
| Callback.OneOutcomePerJob | src/multiproc.py:107-113 | of a job's two messages, only the second reports an outcome, and that outcome is the job's classification |
| Callback.VerdictTextInjective | src/multiproc.py:108-113 | different outcomes of one process never produce the same line |
| LogAggregator.Logger | src/multiproc.py:140-146 | the logger finishes iff the sentinel `kill` is among the messages |
| LogAggregator.LoggerWritesUntilSentinel | src/multiproc.py:140-146 | the file receives one stamped line per message before the first `kill`, then a stamped `Done.` line |
| LogAggregator.LoggerWritesAll | src/multiproc.py:140-146 | without a sentinel, every message is written and the logger does not finish |
| LogAggregator.LoggerIgnoresAfterSentinel | src/multiproc.py:142-144 | messages after the first `kill` leave no trace |
| LogAggregator.LoggerAppendOnly | src/multiproc.py:139-146 | the text written for a prefix of the messages is a prefix of the text written for all of them |
| LogAggregator.ReadLogLineOfLogLine | src/multiproc.py:143-145 | a line written for a message reads back as that message |
| LogAggregator.ReadLinesOfLogLines | src/multiproc.py:143-145 | lines written from newline-free messages split back into the same lines |
| LogAggregator.ReadLogLinesOfLogLines | src/multiproc.py:143-145 | each written line reads back as its message, in order |
| LogAggregator.LogReadsBack | src/multiproc.py:143-145 | when stamp and messages contain no newline, reading the log back line by line recovers the messages followed by `Done.` |
| Registry.ReadPids | src/multiproc.py:155-156 | reading the registry yields one id per line, or fails with a line of the file that `int` rejects (its partner is `ReadRenderPids`) |
| Registry.AddPid | src/multiproc.py:148-150 | `add_pid` keeps the existing file text as a prefix and appends to it |
| Registry.AddPidAppends | src/multiproc.py:148-150 | on a registry it wrote itself, `add_pid` makes the id the last entry and keeps the earlier ones |
| Registry.AddPidCreates | src/multiproc.py:148-150 | on a missing registry, `add_pid` creates one that lists only that id |
| Registry.ReadRenderPids | src/multiproc.py:155-161 | a registry written by `remove_pid` reads back as the same ids in the same order |
| Registry.RemoveFirst | src/multiproc.py:158 | `list.remove` fails iff the id is absent; otherwise it deletes the first occurrence and keeps the order of the rest |
| Registry.DeleteAt | src/multiproc.py:158 | deleting one position removes exactly one copy of that value and shifts later entries down by one |
| Registry.RemovePid | src/multiproc.py:152-161 | `remove_pid` fails on a missing file and on the first line `int` rejects; on a readable file it succeeds iff the id is listed; the rewritten file is the old list minus the first occurrence, one id per line, and reads back as that list |
| Registry.RegisterThenRemove | src/multiproc.py:148-161 | registering an id that was not listed and then removing it restores the file exactly |
| Registry.BlankLineBreaksRemoval | src/multiproc.py:155-156 | a blank line in the registry makes `remove_pid` fail with that line instead of skipping it |
| Text.ReplaceAbsent | src/multiproc.py:132 | `str.replace` of a pattern that does not occur leaves the text unchanged |
| Text.ReplaceIsJoinOfSplit | src/multiproc.py:132 | `str.replace` is splitting at the pattern and joining with the replacement |
| Text.JoinSplit | src/multiproc.py:259 | joining the parts of `split` with the separator gives the text back |
| Text.SplitJoin | src/multiproc.py:259 | splitting at `:` undoes joining with `:` for parts without a colon |
| Text.ReadLinesConcat | src/multiproc.py:155 | the lines of `readlines` put back together give the text |
| Text.ReadLinesAppend | src/multiproc.py:155 | after a text that ends with a newline, `readlines` of a concatenation is the concatenation of the lines |
| Numerals.IntToString | src/multiproc.py:127-130 | `str(n)` is non-empty, all digits except a leading `-` for negative n, and ends with a digit (its partner is `ParseIntOfIntToString`) |
| Numerals.ParseInt | src/multiproc.py:156 | `int(s)` succeeds iff the text, with surrounding ASCII whitespace removed, is an optional sign followed by digits in which single underscores may stand between two digits |
| Numerals.ParseIntRejects | src/multiproc.py:156 | `_1`, `1_`, `1__2`, `+_1`, `1 2` and `\x1c5` are all rejected |
| Numerals.ParseIntOfSignedDigits | src/multiproc.py:259 | `int()` of whitespace, an optional `+` or `-`, digits (single underscores allowed between them) and whitespace is the positional value of the digits, negated after `-` |
| Numerals.ParseIntOfDigits | src/multiproc.py:259 | `int()` of a plain digit string, leading zeros included, is its positional value |
| Numerals.ParseIntOfIntToString | src/multiproc.py:156 | `int(str(n) + whitespace) == n`, so a `"{p}\n"` line parses back to `p` |
| Numerals.ParseInts | src/multiproc.py:156 | the list comprehension of `int` succeeds iff every element parses; on failure it names the first element that does not |
| Numerals.ParseIntsStopsAtFirstBad | src/multiproc.py:156 | the first element `int` rejects is the one reported |

## Left out

- `worker`: it spawns the subprocess with `Popen` and polls it in a loop with a kill queue. Processes, pipes and timing cannot be modelled as pure functions. `callback` takes the worker's result as a `JobResult` value.
- The pool itself and the queues: concurrency is not modelled. The message sequence a logger receives is an input.
- The `kill` subcommand: it only sends `SIGTERM` to each id listed in the registry.
- The signal handler in `run`: it logs the signal, tells the workers to stop, closes and joins the pool, sends the `kill` sentinel and deregisters. Its log messages and the final sentinel go through `LogAggregator.Logger`, and its deregistration is `Registry.RemovePid`; the signal delivery, the timing relative to running jobs, and `sys.exit` are left out.
- The md5-based output directory name and the `_1`, `_2`, … suffix search: these are hashing and file-system probes. Only the ASCII requirement of the hash input is modelled, in `Pool.PlanRun`.
- Pool.PlanRun: `run` calls `add_pid` (line 177) before it creates the pool, and nothing removes the id when `ThreadPool` raises, so a run stopped by `PoolTooSmall` (an empty range, say) leaves its id in the registry. The model keeps the registry out of `PlanRun` and does not state this.
- Numerals.ParseInt: CPython 3.11 and later (and the 3.8.14, 3.9.14 and 3.10.7 security releases) reject `int()` of more than 4300 digits with `ValueError`. The model accepts digit strings of any length, because the limit depends on the interpreter version and its configuration.
- `time` and `datetime`: the elapsed time is an opaque string, and the log timestamp is a string parameter.
- `argparse` and the `__main__` dispatch: the model starts from the parsed values.
- The startup messages that `run` logs before the jobs are submitted: they are formatted from `sys.argv`, the output directory, the process id, the job count and the pool size. The last two are `Pool.NumJobs` and `Pool.PoolSize`; the messages themselves are ordinary inputs to `LogAggregator.Logger`, and their exact wording is not modelled.
- `int()` accepts non-ASCII digits and Unicode whitespace. `Numerals.ParseInt` accepts ASCII only.
- `readlines` in text mode also splits at `\r` and `\r\n`. `Text.ReadLines` splits at `\n` only.
- `Variants.GenCmds` turns the `assert len(modifiers) < 11` into an error result. Under `python -O` the assert is stripped, and the replace loop would run for eleven or more ranges.
- `Pool.PlanRun` takes the CPU count as a parameter and states nothing about what `mp.cpu_count()` returns.

## Findings

| source | as written | input that shows it | evidently intended | confidence | as-written member | corrected member |
|---|---|---|---|---|---|---|
| src/multiproc.py:265-266 | `mod[1] += 1` moves the stop one past `b` whatever the sign of the step, so with a negative step neither `b + 1` nor `b` is ever produced | `5:1:-1` gives `[5, 4, 3]` | `a:b:s` includes `b` when the progression reaches it, whatever the sign of `s` (`[5, 4, 3, 2, 1]`) | medium, not executed | RangeSpec.NegativeStepDropsEnd | RangeSpec.DecodeInclusiveStepped |

=== FILE: callback.dfy ===
/**
 * `callback`: the log messages emitted when the pool reports one finished
 * job.
 */
module Callback {
  import opened Wrappers
  import opened Numerals

  /**
   * What a worker hands back: the leaf process's id, the elapsed time
   * already written as text, whether it was killed by hand, and
   * `returncode` (`None` while the process has not been reaped).
   */
  datatype JobResult = JobResult(pid: int, elapsed: string, manuallyKilled: bool, returncode: Option<int>)

  /** The terminal outcome of one job. */
  datatype Verdict = Killed | Succeeded | Failed(status: Option<int>)

  /** Manual kill takes precedence; otherwise return code 0 is success and anything else failure. */
  function Classify(manuallyKilled: bool, returncode: Option<int>): (v: Verdict)
    ensures v == Killed <==> manuallyKilled
    ensures v == Succeeded <==> !manuallyKilled && returncode == Some(0)
    ensures v.Failed? ==> v.status == returncode
  {
    if manuallyKilled then Killed
    else if returncode == Some(0) then Succeeded
    else Failed(returncode)
  }

  /** `"<pid:P> "`, the head of every job message. */
  function PidPrefix(pid: int): string
  {
    "<pid:" + IntToString(pid) + "> "
  }

  /** Python's `str` of a return code that may still be `None`. */
  function StatusText(status: Option<int>): string
  {
    match status
    case None => "None"
    case Some(n) => IntToString(n)
  }

  function VerdictText(v: Verdict): string
  {
    match v
    case Killed => "Manually killed."
    case Succeeded => "Completed successfully."
    case Failed(status) => "Failed with exit status " + StatusText(status) + "."
  }

  /**
   * The messages `callback` puts on the log queue, in order: the
   * execution time, then exactly one outcome line, both headed by the
   * job's process id.
   */
  function CallbackMessages(r: JobResult): (msgs: seq<string>)
    ensures |msgs| == 2
    ensures forall i :: 0 <= i < |msgs| ==>
              |PidPrefix(r.pid)| < |msgs[i]| && msgs[i][..|PidPrefix(r.pid)|] == PidPrefix(r.pid)
  {
    var prefix := PidPrefix(r.pid);
    var timing := "Execution time: " + r.elapsed + " seconds.";
    var outcome := VerdictText(Classify(r.manuallyKilled, r.returncode));
    assert (prefix + timing)[..|prefix|] == prefix;
    assert (prefix + outcome)[..|prefix|] == prefix;
    [prefix + timing, prefix + outcome]
  }

  /**
   * The text of each message: the elapsed time first; then a manual kill
   * wins over the return code, 0 is success, and anything else (`None`
   * included) is a failure quoting the code.
   */
  lemma CallbackText(r: JobResult)
    ensures CallbackMessages(r)[0] == PidPrefix(r.pid) + "Execution time: " + r.elapsed + " seconds."
    ensures r.manuallyKilled ==> CallbackMessages(r)[1] == PidPrefix(r.pid) + "Manually killed."
    ensures !r.manuallyKilled && r.returncode == Some(0) ==>
              CallbackMessages(r)[1] == PidPrefix(r.pid) + "Completed successfully."
    ensures !r.manuallyKilled && r.returncode != Some(0) ==>
              CallbackMessages(r)[1] == PidPrefix(r.pid) + "Failed with exit status " + StatusText(r.returncode) + "."
  {
    var prefix := PidPrefix(r.pid);
    assert prefix + ("Execution time: " + r.elapsed + " seconds.")
        == prefix + "Execution time: " + r.elapsed + " seconds.";
    if !r.manuallyKilled && r.returncode != Some(0) {
      assert prefix + ("Failed with exit status " + StatusText(r.returncode) + ".")
          == prefix + "Failed with exit status " + StatusText(r.returncode) + ".";
    }
  }

  // ---------------------------------------------------------------------
  // Reading an outcome back from a message

  const FailedHead: string := "Failed with exit status "

  /** The verdict an outcome text reports, or `None` if it reports none. */
  function ReadVerdictText(body: string): Option<Verdict>
  {
    if body == "Manually killed." then Some(Killed)
    else if body == "Completed successfully." then Some(Succeeded)
    else if |body| > |FailedHead| && body[..|FailedHead|] == FailedHead && body[|body| - 1] == '.' then
      var status := body[|FailedHead|..|body| - 1];
      if status == "None" then Some(Failed(None))
      else match ParseInt(status)
        case Some(n) => Some(Failed(Some(n)))
        case None => None
    else None
  }

  /** The verdict a message of process `pid` reports, or `None` if it reports none. */
  function ReadVerdict(pid: int, msg: string): Option<Verdict>
  {
    var prefix := PidPrefix(pid);
    if |msg| < |prefix| || msg[..|prefix|] != prefix then None
    else ReadVerdictText(msg[|prefix|..])
  }

  lemma FailedTextRoundTrip(status: Option<int>)
    ensures ReadVerdictText(VerdictText(Failed(status))) == Some(Failed(status))
  {
    var body := VerdictText(Failed(status));
    assert body[..|FailedHead|] == FailedHead;
    assert body[|FailedHead|..|body| - 1] == StatusText(status);
    assert body[0] == 'F';
    if status.Some? {
      var t := IntToString(status.value);
      ParseIntOfIntToString(status.value, "");
      assert t + "" == t;
      assert t != "None" by {
        assert IsDigit(t[|t| - 1]);
      }
    }
  }

  /** Every outcome line reads back as the verdict it was written from. */
  lemma VerdictRoundTrip(pid: int, v: Verdict)
    ensures ReadVerdict(pid, PidPrefix(pid) + VerdictText(v)) == Some(v)
  {
    var prefix := PidPrefix(pid);
    var msg := prefix + VerdictText(v);
    assert msg[..|prefix|] == prefix;
    assert msg[|prefix|..] == VerdictText(v);
    if v.Failed? {
      FailedTextRoundTrip(v.status);
    }
  }

  /**
   * Of the two messages of a job, exactly one reports an outcome: the
   * second, and it reports the job's classification.
   */
  lemma OneOutcomePerJob(r: JobResult)
    ensures ReadVerdict(r.pid, CallbackMessages(r)[0]).None?
    ensures ReadVerdict(r.pid, CallbackMessages(r)[1]) == Some(Classify(r.manuallyKilled, r.returncode))
  {
    var prefix := PidPrefix(r.pid);
    var first := CallbackMessages(r)[0];
    assert first[..|prefix|] == prefix;
    var body := first[|prefix|..];
    assert body == "Execution time: " + r.elapsed + " seconds.";
    assert body[0] == 'E';
    assert body != "Manually killed.";
    assert body != "Completed successfully.";
    assert |body| > |FailedHead| ==> body[..|FailedHead|] != FailedHead by {
      if |body| > |FailedHead| {
        assert body[..|FailedHead|][0] == 'E';
      }
    }
    VerdictRoundTrip(r.pid, Classify(r.manuallyKilled, r.returncode));
  }

  /** Distinct outcomes of the same process never produce the same line. */
  lemma VerdictTextInjective(pid: int, v: Verdict, w: Verdict)
    requires PidPrefix(pid) + VerdictText(v) == PidPrefix(pid) + VerdictText(w)
    ensures v == w
  {
    VerdictRoundTrip(pid, v);
    VerdictRoundTrip(pid, w);
  }
}

=== FILE: logger.dfy ===
/**
 * `logger`: the single consumer of the log queue, as a function from the
 * messages it receives to the text it appends to the log file.
 */
module LogAggregator {
  import opened Wrappers
  import opened Text

  /** The message that tells the logger to finish. */
  const Sentinel: string := "kill"

  /** One log line: the run's fixed timestamp, `": "`, the message. */
  function LogLine(stamp: string, m: string): string
  {
    stamp + ": " + m + "\n"
  }

  /** One line per message, in order. */
  function LogLines(stamp: string, msgs: seq<string>): (lines: seq<string>)
    ensures |lines| == |msgs|
    ensures forall i :: 0 <= i < |msgs| ==> lines[i] == LogLine(stamp, msgs[i])
  {
    seq(|msgs|, i requires 0 <= i < |msgs| => LogLine(stamp, msgs[i]))
  }

  /** The text written, and whether the logger has finished (seen the sentinel). */
  datatype LogOutcome = LogOutcome(written: string, finished: bool)

  /**
   * What `logger` writes for the queue contents `msgs`: a line per
   * message up to the first sentinel, then a `Done.` line. Without a
   * sentinel it writes every message and keeps waiting.
   */
  function Logger(stamp: string, msgs: seq<string>): (r: LogOutcome)
    ensures r.finished <==> Sentinel in msgs
  {
    if |msgs| == 0 then LogOutcome("", false)
    else if msgs[0] == Sentinel then LogOutcome(LogLine(stamp, "Done."), true)
    else
      var rest := Logger(stamp, msgs[1..]);
      assert msgs == [msgs[0]] + msgs[1..];
      LogOutcome(LogLine(stamp, msgs[0]) + rest.written, rest.finished)
  }

  lemma LogLinesTail(stamp: string, msgs: seq<string>)
    requires |msgs| > 0
    ensures Concat(LogLines(stamp, msgs)) == LogLine(stamp, msgs[0]) + Concat(LogLines(stamp, msgs[1..]))
  {
    assert LogLines(stamp, msgs)[1..] == LogLines(stamp, msgs[1..]);
  }

  /**
   * Up to the first sentinel the logger writes one line per message, in
   * arrival order and with the same timestamp, then a single `Done.` line.
   */
  lemma {:induction false} LoggerWritesUntilSentinel(stamp: string, before: seq<string>, after: seq<string>)
    requires Sentinel !in before
    ensures Logger(stamp, before + [Sentinel] + after).written ==
            Concat(LogLines(stamp, before)) + LogLine(stamp, "Done.")
    decreases |before|
  {
    var msgs := before + [Sentinel] + after;
    if |before| == 0 {
      assert msgs == [Sentinel] + after;
    } else {
      assert msgs[0] == before[0] && before[0] != Sentinel;
      assert msgs[1..] == before[1..] + [Sentinel] + after;
      LoggerWritesUntilSentinel(stamp, before[1..], after);
      LogLinesTail(stamp, before);
    }
  }

  /** Without a sentinel, every message is written and the logger keeps waiting. */
  lemma {:induction false} LoggerWritesAll(stamp: string, msgs: seq<string>)
    requires Sentinel !in msgs
    ensures Logger(stamp, msgs) == LogOutcome(Concat(LogLines(stamp, msgs)), false)
    decreases |msgs|
  {
    if |msgs| > 0 {
      assert msgs[0] != Sentinel;
      LoggerWritesAll(stamp, msgs[1..]);
      LogLinesTail(stamp, msgs);
    }
  }

  /** Nothing that arrives after the first sentinel reaches the file. */
  lemma {:induction false} LoggerIgnoresAfterSentinel(stamp: string, before: seq<string>, after: seq<string>)
    requires Sentinel !in before
    ensures Logger(stamp, before + [Sentinel] + after) == Logger(stamp, before + [Sentinel])
    decreases |before|
  {
    if |before| > 0 {
      assert (before + [Sentinel] + after)[1..] == before[1..] + [Sentinel] + after;
      assert (before + [Sentinel])[1..] == before[1..] + [Sentinel];
      LoggerIgnoresAfterSentinel(stamp, before[1..], after);
    } else {
      assert before + [Sentinel] + after == [Sentinel] + after;
    }
  }

  /**
   * The log only grows: what is written for the first `j` messages is a
   * prefix of what is written for all of them.
   */
  lemma {:induction false} LoggerAppendOnly(stamp: string, msgs: seq<string>, j: nat)
    requires j <= |msgs|
    ensures var early := Logger(stamp, msgs[..j]).written;
            var late := Logger(stamp, msgs).written;
            |early| <= |late| && late[..|early|] == early
    decreases j
  {
    if j > 0 && msgs[0] != Sentinel {
      LoggerAppendOnly(stamp, msgs[1..], j - 1);
      assert msgs[..j][1..] == msgs[1..][..j - 1];
    } else if j > 0 {
      assert msgs[..j][0] == Sentinel;
    }
  }

  // ---------------------------------------------------------------------
  // Reading the log file back

  /** The message of one line written with `stamp`, or `None`. */
  function ReadLogLine(stamp: string, line: string): Option<string>
  {
    var head := stamp + ": ";
    if |line| >= |head| + 1 && line[..|head|] == head && line[|line| - 1] == '\n' then
      Some(line[|head|..|line| - 1])
    else None
  }

  /** A written line reads back as the message it was written from. */
  lemma ReadLogLineOfLogLine(stamp: string, m: string)
    ensures ReadLogLine(stamp, LogLine(stamp, m)) == Some(m)
  {
    var line := LogLine(stamp, m);
    var head := stamp + ": ";
    assert line[..|head|] == head;
    assert line[|head|..|line| - 1] == m;
  }

  /** The messages of a log file written with `stamp`, or `None` if some line is not such a line. */
  function ReadLog(stamp: string, text: string): Option<seq<string>>
  {
    ReadLogLines(stamp, ReadLines(text))
  }

  function ReadLogLines(stamp: string, lines: seq<string>): Option<seq<string>>
  {
    if |lines| == 0 then Some([])
    else match (ReadLogLine(stamp, lines[0]), ReadLogLines(stamp, lines[1..]))
      case (Some(m), Some(ms)) => Some([m] + ms)
      case _ => None
  }

  /** Lines written from newline-free messages split back into the same lines. */
  lemma {:induction false} ReadLinesOfLogLines(stamp: string, msgs: seq<string>)
    requires '\n' !in stamp
    requires forall i :: 0 <= i < |msgs| ==> '\n' !in msgs[i]
    ensures ReadLines(Concat(LogLines(stamp, msgs))) == LogLines(stamp, msgs)
    decreases |msgs|
  {
    if |msgs| > 0 {
      var line := LogLine(stamp, msgs[0]);
      var body := stamp + ": " + msgs[0];
      assert line == body + "\n";
      assert '\n' !in body;
      ReadLinesOneLine(body);
      ReadLinesOfLogLines(stamp, msgs[1..]);
      LogLinesTail(stamp, msgs);
      ReadLinesAppend(line, Concat(LogLines(stamp, msgs[1..])));
      assert LogLines(stamp, msgs) == [line] + LogLines(stamp, msgs[1..]);
    }
  }

  /** Each written line reads back as its message. */
  lemma {:induction false} ReadLogLinesOfLogLines(stamp: string, msgs: seq<string>)
    ensures ReadLogLines(stamp, LogLines(stamp, msgs)) == Some(msgs)
    decreases |msgs|
  {
    if |msgs| > 0 {
      ReadLogLinesOfLogLines(stamp, msgs[1..]);
      assert LogLines(stamp, msgs)[1..] == LogLines(stamp, msgs[1..]);
      ReadLogLineOfLogLine(stamp, msgs[0]);
      assert msgs == [msgs[0]] + msgs[1..];
    }
  }

  lemma LogLinesAppend(stamp: string, msgs: seq<string>, m: string)
    ensures Concat(LogLines(stamp, msgs + [m])) == Concat(LogLines(stamp, msgs)) + LogLine(stamp, m)
  {
    assert LogLines(stamp, msgs + [m]) == LogLines(stamp, msgs) + [LogLine(stamp, m)];
    ConcatAppend(LogLines(stamp, msgs), LogLine(stamp, m));
  }

  /**
   * Reading the finished log gives back every message before the first
   * sentinel, in arrival order, then `Done.`.
   */
  lemma LogReadsBack(stamp: string, before: seq<string>, after: seq<string>)
    requires '\n' !in stamp
    requires Sentinel !in before
    requires forall i :: 0 <= i < |before| ==> '\n' !in before[i]
    ensures ReadLog(stamp, Logger(stamp, before + [Sentinel] + after).written) == Some(before + ["Done."])
  {
    LoggerWritesUntilSentinel(stamp, before, after);
    var all := before + ["Done."];
    assert forall i :: 0 <= i < |all| ==> '\n' !in all[i];
    ReadLinesOfLogLines(stamp, all);
    ReadLogLinesOfLogLines(stamp, all);
    LogLinesAppend(stamp, before, "Done.");
  }
}

=== FILE: numerals.dfy ===
/**
 * Decimal text of integers: Python's `str(n)` for an `int`, and Python's
 * `int(s)` on a string in base 10.
 */
module Numerals {
  import opened Wrappers

  predicate IsDigit(c: char)
  {
    '0' <= c <= '9'
  }

  function DigitValue(c: char): nat
    requires IsDigit(c)
  {
    (c as int) - ('0' as int)
  }

  function DigitChar(d: nat): char
    requires d < 10
  {
    ((('0' as int) + d) as char)
  }

  /**
   * The ASCII whitespace `int()` strips around its argument: space, tab,
   * line feed, vertical tab, form feed, carriage return. The separators
   * `\x1c`..`\x1f` count as whitespace for `str.isspace` but not here.
   */
  predicate IsSpace(c: char)
  {
    var k := c as int;
    k == 32 || 9 <= k <= 13
  }

  /** Every character of `s` is a decimal digit. */
  predicate AllDigits(s: string)
  {
    forall i :: 0 <= i < |s| ==> IsDigit(s[i])
  }

  /** Decimal digits of `n` without leading zeros, as `str(n)` writes them. */
  function NatToString(n: nat): (s: string)
    ensures |s| >= 1 && AllDigits(s)
    ensures |s| > 1 ==> s[0] != '0'
    decreases n
  {
    if n < 10 then [DigitChar(n)] else NatToString(n / 10) + [DigitChar(n % 10)]
  }

  /** Python's `str(n)`: a minus sign for negatives, then the digits of `|n|`. */
  function IntToString(n: int): (s: string)
    ensures |s| >= 1 && IsDigit(s[|s| - 1])
    ensures forall i :: 0 <= i < |s| ==> IsDigit(s[i]) || (i == 0 && s[i] == '-' && n < 0)
  {
    if n < 0 then "-" + NatToString(-n) else NatToString(n)
  }

  /** The value of a string of decimal digits (leading zeros allowed). */
  function DigitsValue(s: string): nat
    requires AllDigits(s)
  {
    if |s| == 0 then 0 else DigitsValue(s[..|s| - 1]) * 10 + DigitValue(s[|s| - 1])
  }

  function TrimLeft(s: string): string
  {
    if |s| > 0 && IsSpace(s[0]) then TrimLeft(s[1..]) else s
  }

  function TrimRight(s: string): string
  {
    if |s| > 0 && IsSpace(s[|s| - 1]) then TrimRight(s[..|s| - 1]) else s
  }

  /**
   * The digit part `int()` accepts: digits, where single underscores may
   * separate two digits.
   */
  predicate WellFormedDigits(s: string)
  {
    && |s| >= 1
    && IsDigit(s[0])
    && IsDigit(s[|s| - 1])
    && (forall i :: 0 <= i < |s| ==> IsDigit(s[i]) || s[i] == '_')
    && (forall i :: 0 <= i < |s| - 1 ==> !(s[i] == '_' && s[i + 1] == '_'))
  }

  function RemoveUnderscores(s: string): (r: string)
    requires forall i :: 0 <= i < |s| ==> IsDigit(s[i]) || s[i] == '_'
    ensures AllDigits(r)
  {
    if |s| == 0 then ""
    else if s[0] == '_' then RemoveUnderscores(s[1..])
    else [s[0]] + RemoveUnderscores(s[1..])
  }

  function UnsignedValue(s: string): nat
    requires WellFormedDigits(s)
  {
    DigitsValue(RemoveUnderscores(s))
  }

  /** An optional `+` or `-` followed by digits, single underscores allowed between them. */
  predicate SignedDigits(t: string)
  {
    WellFormedDigits(t) || (|t| >= 1 && (t[0] == '+' || t[0] == '-') && WellFormedDigits(t[1..]))
  }

  /**
   * Python's `int(s)`: surrounding whitespace is ignored, an optional sign
   * precedes the digits; anything else raises `ValueError` (here `None`).
   */
  function ParseInt(s: string): (r: Option<int>)
    ensures r.Some? <==> SignedDigits(TrimRight(TrimLeft(s)))
  {
    var t := TrimRight(TrimLeft(s));
    if |t| > 0 && (t[0] == '+' || t[0] == '-') then
      if WellFormedDigits(t[1..]) then
        var v: int := UnsignedValue(t[1..]);
        Some(if t[0] == '-' then -v else v)
      else None
    else if WellFormedDigits(t) then Some(UnsignedValue(t))
    else None
  }

  /** `parts[i]` is the first element `int()` rejects. */
  predicate FirstUnparsable(parts: seq<string>, i: int)
  {
    && 0 <= i < |parts|
    && ParseInt(parts[i]).None?
    && forall j :: 0 <= j < i ==> ParseInt(parts[j]).Some?
  }

  /**
   * `[int(x) for x in parts]`: every part converted, or the first part
   * that cannot be.
   */
  function ParseInts(parts: seq<string>): (r: Result<seq<int>, string>)
    ensures r.Ok? <==> forall i :: 0 <= i < |parts| ==> ParseInt(parts[i]).Some?
    ensures r.Ok? ==> |r.value| == |parts|
    ensures r.Ok? ==> forall i :: 0 <= i < |parts| ==> ParseInt(parts[i]) == Some(r.value[i])
    ensures r.Err? ==> exists i :: FirstUnparsable(parts, i) && parts[i] == r.error
  {
    if |parts| == 0 then Ok([])
    else match ParseInt(parts[0])
      case None => Err(parts[0])
      case Some(v) =>
        match ParseInts(parts[1..])
        case Err(bad) =>
          assert forall j :: FirstUnparsable(parts[1..], j) ==> FirstUnparsable(parts, j + 1);
          Err(bad)
        case Ok(vs) => Ok([v] + vs)
  }

  /** `[int(x) for x in parts]` raises on the first part that cannot be converted. */
  lemma {:induction false} ParseIntsStopsAtFirstBad(parts: seq<string>, i: int)
    requires FirstUnparsable(parts, i)
    ensures ParseInts(parts) == Err(parts[i])
    decreases i
  {
    if i > 0 {
      assert ParseInt(parts[0]).Some?;
      assert FirstUnparsable(parts[1..], i - 1);
      ParseIntsStopsAtFirstBad(parts[1..], i - 1);
    }
  }

  /** `str(v)` for every element, in order. */
  function Strs(vs: seq<int>): (r: seq<string>)
    ensures |r| == |vs|
  {
    if |vs| == 0 then [] else [IntToString(vs[0])] + Strs(vs[1..])
  }

  // ---------------------------------------------------------------------
  // Round trips

  lemma {:induction false} DigitsValueOfNatToString(n: nat)
    ensures DigitsValue(NatToString(n)) == n
    decreases n
  {
    if n >= 10 {
      DigitsValueOfNatToString(n / 10);
      var s := NatToString(n / 10) + [DigitChar(n % 10)];
      assert s[..|s| - 1] == NatToString(n / 10);
    }
  }

  lemma {:induction false} RemoveUnderscoresOfDigits(s: string)
    requires AllDigits(s)
    ensures RemoveUnderscores(s) == s
    decreases |s|
  {
    if |s| > 0 {
      RemoveUnderscoresOfDigits(s[1..]);
      assert s == [s[0]] + s[1..];
    }
  }

  lemma {:induction false} UnsignedValueOfNatToString(n: nat)
    ensures WellFormedDigits(NatToString(n))
    ensures UnsignedValue(NatToString(n)) == n
  {
    RemoveUnderscoresOfDigits(NatToString(n));
    DigitsValueOfNatToString(n);
  }

  /** `int(str(n)) == n`, also with whitespace (a newline, say) after the digits. */
  lemma {:induction false} ParseIntOfIntToString(n: int, trailing: string)
    requires forall i :: 0 <= i < |trailing| ==> IsSpace(trailing[i])
    ensures ParseInt(IntToString(n) + trailing) == Some(n)
  {
    var s := IntToString(n);
    assert !IsSpace((s + trailing)[0]);
    assert TrimLeft(s + trailing) == s + trailing;
    TrimRightSpaces(s, trailing);
    ParseIntOfIntToStringBare(n);
  }

  lemma ParseIntOfIntToStringBare(n: int)
    ensures var s := IntToString(n);
            TrimRight(TrimLeft(s)) == s ==> ParseInt(s) == Some(n)
  {
    var s := IntToString(n);
    if n < 0 {
      UnsignedValueOfNatToString(-n);
      assert s[1..] == NatToString(-n);
    } else {
      UnsignedValueOfNatToString(n);
    }
  }

  /** Only whitespace made of `IsSpace` characters. */
  predicate AllSpace(s: string)
  {
    forall i :: 0 <= i < |s| ==> IsSpace(s[i])
  }

  /**
   * The value `int()` gives: whitespace around an optional sign and a
   * digit string (single underscores allowed between digits) is read as
   * the positional value of the digits, negated after a minus sign.
   */
  lemma ParseIntOfSignedDigits(before: string, sign: string, digits: string, after: string)
    requires AllSpace(before) && AllSpace(after)
    requires sign == "" || sign == "+" || sign == "-"
    requires WellFormedDigits(digits)
    ensures var v: int := DigitsValue(RemoveUnderscores(digits));
            ParseInt(before + sign + digits + after) == Some(if sign == "-" then -v else v)
  {
    var body := sign + digits;
    assert body[|body| - 1] == digits[|digits| - 1];
    TrimAround(before, body, after);
    assert before + sign + digits + after == before + body + after;
    ParseIntOfTrimmed(before + body + after, sign, digits);
  }

  lemma ParseIntOfTrimmed(s: string, sign: string, digits: string)
    requires sign == "" || sign == "+" || sign == "-"
    requires WellFormedDigits(digits)
    requires TrimRight(TrimLeft(s)) == sign + digits
    ensures var v: int := DigitsValue(RemoveUnderscores(digits));
            ParseInt(s) == Some(if sign == "-" then -v else v)
  {
    var t := sign + digits;
    if sign == "" {
      assert t == digits;
      assert !(t[0] == '+' || t[0] == '-');
    } else {
      assert t[1..] == digits;
      assert t[0] == sign[0];
    }
  }

  /** Trimming removes exactly the whitespace around a text that starts and ends with a non-space. */
  lemma TrimAround(before: string, body: string, after: string)
    requires AllSpace(before) && AllSpace(after)
    requires |body| >= 1 && !IsSpace(body[0]) && !IsSpace(body[|body| - 1])
    ensures TrimRight(TrimLeft(before + body + after)) == body
  {
    assert before + body + after == before + (body + after);
    TrimLeftSpaces(before, body + after);
    TrimRightSpaces(body, after);
  }

  /**
   * Texts `int()` rejects although they look numeric: underscores that do
   * not sit between two digits, and a file separator (`\x1c`), which
   * `str.isspace` accepts but `int()` does not strip.
   */
  lemma ParseIntRejects()
    ensures ParseInt("_1") == None
    ensures ParseInt("1_") == None
    ensures ParseInt("1__2") == None
    ensures ParseInt("+_1") == None
    ensures ParseInt("1 2") == None
    ensures ParseInt([28 as char, '5']) == None
  {
  }

  /** Without underscores the value is just the positional value of the digits. */
  lemma ParseIntOfDigits(digits: string)
    requires |digits| >= 1 && AllDigits(digits)
    ensures ParseInt(digits) == Some(DigitsValue(digits))
  {
    RemoveUnderscoresOfDigits(digits);
    assert "" + "" + digits + "" == digits;
    ParseIntOfSignedDigits("", "", digits, "");
  }

  lemma {:induction false} TrimLeftSpaces(spaces: string, s: string)
    requires AllSpace(spaces)
    requires |s| >= 1 && !IsSpace(s[0])
    ensures TrimLeft(spaces + s) == s
    decreases |spaces|
  {
    if |spaces| == 0 {
      assert spaces + s == s;
    } else {
      assert (spaces + s)[1..] == spaces[1..] + s;
      TrimLeftSpaces(spaces[1..], s);
    }
  }

  lemma {:induction false} TrimRightSpaces(s: string, trailing: string)
    requires |s| >= 1 && !IsSpace(s[|s| - 1])
    requires forall i :: 0 <= i < |trailing| ==> IsSpace(trailing[i])
    ensures TrimRight(s + trailing) == s
    decreases |trailing|
  {
    if |trailing| == 0 {
      assert s + trailing == s;
    } else {
      var t := s + trailing;
      assert t[..|t| - 1] == s + trailing[..|trailing| - 1];
      TrimRightSpaces(s, trailing[..|trailing| - 1]);
    }
  }

  /** Every `str(v)` converts back to `v`. */
  lemma {:induction false} ParseIntsOfStrs(vs: seq<int>)
    ensures ParseInts(Strs(vs)) == Ok(vs)
    decreases |vs|
  {
    if |vs| > 0 {
      ParseIntOfIntToString(vs[0], "");
      assert IntToString(vs[0]) + "" == IntToString(vs[0]);
      ParseIntsOfStrs(vs[1..]);
      assert Strs(vs)[1..] == Strs(vs[1..]);
      assert [vs[0]] + vs[1..] == vs;
    }
  }


  /** The only characters `str(n)` produces are digits and a leading minus. */
  lemma IntToStringAvoids(n: int, c: char)
    requires !IsDigit(c) && c != '-'
    ensures c !in IntToString(n)
  {
  }

  /** Digit characters and their values correspond one to one. */
  lemma DigitCharValue(d: nat, c: char)
    requires d < 10
    ensures IsDigit(DigitChar(d)) && DigitValue(DigitChar(d)) == d
    ensures IsDigit(c) ==> DigitChar(DigitValue(c)) == c
  {
  }
}

=== FILE: pool.dfy ===
/**
 * The job count and worker-pool size `run` computes before it dispatches
 * anything, and the order in which a run can fail at that point.
 */
module Pool {
  import opened Wrappers
  import opened CartesianProduct
  import opened Variants
  import RangeSpec

  /** `sys.maxsize` on a 64-bit build: `len()` of a longer range raises `OverflowError`. */
  const MaxSize: nat := 0x7FFF_FFFF_FFFF_FFFF

  /** Some range is too long for `len()`. */
  predicate RangeTooLongFor(modifiers: Option<seq<seq<int>>>)
  {
    modifiers.Some? && exists i :: 0 <= i < |modifiers.value| && |modifiers.value[i]| > MaxSize
  }

  /** Every character of the command is ASCII, as `bytes(command, "ascii")` demands. */
  predicate IsAscii(cmd: string)
  {
    forall i :: 0 <= i < |cmd| ==> cmd[i] as int < 128
  }

  /**
   * `num_jobs`: 1 without modifiers, else the product of the range
   * lengths, which is 0 exactly when some range is empty.
   */
  function NumJobs(modifiers: Option<seq<seq<int>>>): (n: nat)
    ensures modifiers.None? ==> n == 1
    ensures modifiers.Some? ==>
              (n == 0 <==> exists i :: 0 <= i < |modifiers.value| && |modifiers.value[i]| == 0)
  {
    match modifiers
    case None => 1
    case Some(ranges) =>
      ProdLenZero(ranges);
      ProdLen(ranges)
  }

  /** The pool size asked for: `-j`, where 0 stands for the CPU count. */
  function Requested(jobsFlag: int, cpuCount: nat): int
  {
    if jobsFlag == 0 then cpuCount else jobsFlag
  }

  /** `num_proc = min(requested, num_jobs)`. */
  function PoolSize(jobsFlag: int, cpuCount: nat, numJobs: nat): (size: int)
    ensures size <= numJobs && size <= Requested(jobsFlag, cpuCount)
    ensures size == numJobs || size == Requested(jobsFlag, cpuCount)
  {
    var wanted := Requested(jobsFlag, cpuCount);
    if wanted <= numJobs then wanted else numJobs
  }

  /**
   * Why a run stops before dispatching: the command is not ASCII (so it
   * cannot be hashed), a range is too long for `len()`, the thread pool
   * refuses a size below 1, or `gen_cmds` refuses the modifiers.
   */
  datatype RunError =
    | CommandNotAscii
    | RangeTooLong
    | PoolTooSmall(size: int)
    | GenerationFailed(error: GenError)

  /** What `run` has settled before the first job starts. */
  datatype RunPlan = RunPlan(numJobs: nat, poolSize: nat, variants: seq<Variant>)

  /**
   * The checks of `run` that can stop it before the first job starts, in
   * the order the code makes them: hashing the command, the job count,
   * the pool (whose constructor rejects a size below 1), then the
   * variants (whose generator checks the modifier count when first
   * iterated). The registry and the output directory are not part of it.
   */
  function PlanRun(cmd: string, modifiers: Option<seq<seq<int>>>, jobsFlag: int, cpuCount: nat)
    : (r: Result<RunPlan, RunError>)
    ensures !IsAscii(cmd) ==> r == Err(CommandNotAscii)
    ensures IsAscii(cmd) && RangeTooLongFor(modifiers) ==> r == Err(RangeTooLong)
    ensures IsAscii(cmd) && !RangeTooLongFor(modifiers) && PoolSize(jobsFlag, cpuCount, NumJobs(modifiers)) < 1 ==>
              r == Err(PoolTooSmall(PoolSize(jobsFlag, cpuCount, NumJobs(modifiers))))
    ensures r.Err? && r.error.GenerationFailed? ==> PoolSize(jobsFlag, cpuCount, NumJobs(modifiers)) >= 1
    ensures r.Err? <==>
              || !IsAscii(cmd) || RangeTooLongFor(modifiers)
              || PoolSize(jobsFlag, cpuCount, NumJobs(modifiers)) < 1 || GenCmds(cmd, modifiers).Err?
    ensures r.Ok? ==> 1 <= r.value.poolSize <= r.value.numJobs
    ensures r.Ok? ==> r.value.poolSize == PoolSize(jobsFlag, cpuCount, NumJobs(modifiers))
    ensures r.Ok? ==> r.value.numJobs == NumJobs(modifiers)
    ensures r.Ok? ==> r.value.numJobs == |r.value.variants|
    ensures r.Ok? ==> GenCmds(cmd, modifiers) == Ok(r.value.variants)
  {
    var numJobs := NumJobs(modifiers);
    var size := PoolSize(jobsFlag, cpuCount, numJobs);
    if !IsAscii(cmd) then Err(CommandNotAscii)
    else if RangeTooLongFor(modifiers) then Err(RangeTooLong)
    else if size < 1 then Err(PoolTooSmall(size))
    else match GenCmds(cmd, modifiers)
      case Err(e) => Err(GenerationFailed(e))
      case Ok(variants) =>
        JobCountMatchesVariants(cmd, modifiers);
        Ok(RunPlan(numJobs, size, variants))
  }

  /** The job count is the number of variants `gen_cmds` yields. */
  lemma JobCountMatchesVariants(cmd: string, modifiers: Option<seq<seq<int>>>)
    requires GenCmds(cmd, modifiers).Ok?
    ensures |GenCmds(cmd, modifiers).value| == NumJobs(modifiers)
  {
    if modifiers.Some? {
      GenCmdsCount(cmd, modifiers.value);
    }
  }

  /** An empty range (`-m 0`, say) leaves no jobs, and the pool of size 0 is refused. */
  lemma EmptyRangeStopsRun(cmd: string, ranges: seq<seq<int>>, jobsFlag: int, cpuCount: nat, i: int)
    requires 0 <= i < |ranges| && |ranges[i]| == 0
    ensures NumJobs(Some(ranges)) == 0
    ensures PlanRun(cmd, Some(ranges), jobsFlag, cpuCount).Err?
  {
  }

  /** With a positive `-j` and enough jobs, the pool has exactly the size asked for. */
  lemma PoolHonoursRequest(jobsFlag: int, cpuCount: nat, numJobs: nat)
    requires 0 < jobsFlag <= numJobs
    ensures PoolSize(jobsFlag, cpuCount, numJobs) == jobsFlag
  {
  }

  /**
   * Ranges read from the command line are decoded range specs, which never
   * repeat a value, so no two jobs of a run write the same output file.
   */
  lemma DecodedSpecsGiveDistinctOutputs(cmd: string, specs: seq<string>, ranges: seq<seq<int>>)
    requires |specs| <= MaxModifiers && |ranges| == |specs|
    requires forall i :: 0 <= i < |specs| ==> RangeSpec.DecodeSpec(specs[i]) == Ok(ranges[i])
    ensures GenCmds(cmd, Some(ranges)).Ok?
    ensures var vs := GenCmds(cmd, Some(ranges)).value;
            forall i, j :: 0 <= i < j < |vs| ==> vs[i].outName != vs[j].outName
  {
    forall k | 0 <= k < |ranges|
      ensures Seqs.Distinct(ranges[k])
    {
      RangeSpec.DecodedDistinct(specs[k]);
    }
    GenCmdsDistinctNames(cmd, ranges);
  }

  /**
   * A count spec beyond `sys.maxsize` (`-m 9223372036854775808`) decodes
   * to a range `len()` cannot measure, so the run stops at the job count.
   */
  lemma HugeCountStopsRun(cmd: string, spec: string, jobsFlag: int, cpuCount: nat)
    requires IsAscii(cmd)
    requires RangeSpec.PartsAre(spec, [MaxSize + 1])
    ensures RangeSpec.DecodeSpec(spec).Ok?
    ensures PlanRun(cmd, Some([RangeSpec.DecodeSpec(spec).value]), jobsFlag, cpuCount) == Err(RangeTooLong)
  {
    RangeSpec.DecodeCount(spec, MaxSize + 1);
    var r := RangeSpec.DecodeSpec(spec).value;
    assert |r| == MaxSize + 1;
    assert RangeTooLongFor(Some([r])) by { assert |[r][0]| > MaxSize; }
  }
}

=== FILE: product.dfy ===
/**
 * `itertools.product(*ranges)` as a list of tuples (tuples as sequences):
 * every choice of one value per range, the first range varying slowest.
 */
module CartesianProduct {
  import opened Seqs

  /** `t` picks one value from each range, in slot order. */
  predicate InRanges(t: seq<int>, ranges: seq<seq<int>>)
  {
    |t| == |ranges| && forall i :: 0 <= i < |t| ==> t[i] in ranges[i]
  }

  /** `math.prod([len(r) for r in ranges])`: 1 for no ranges. */
  function ProdLen(ranges: seq<seq<int>>): nat
  {
    if |ranges| == 0 then 1 else |ranges[0]| * ProdLen(ranges[1..])
  }

  /** The product of the lengths is 0 exactly when some range is empty. */
  lemma {:induction false} ProdLenZero(ranges: seq<seq<int>>)
    ensures ProdLen(ranges) == 0 <==> exists i :: 0 <= i < |ranges| && |ranges[i]| == 0
    decreases |ranges|
  {
    if |ranges| > 0 {
      ProdLenZero(ranges[1..]);
      if |ranges[0]| == 0 {
        assert |ranges[0]| == 0;
      } else if ProdLen(ranges[1..]) == 0 {
        var j :| 0 <= j < |ranges[1..]| && |ranges[1..][j]| == 0;
        assert |ranges[j + 1]| == 0;
      } else {
        forall i | 0 <= i < |ranges|
          ensures |ranges[i]| != 0
        {
          if i > 0 {
            assert ranges[i] == ranges[1..][i - 1];
          }
        }
      }
    }
  }

  /** `(v,) + t` for every `t` of `tails`, in order. */
  function Prepend(v: int, tails: seq<seq<int>>): (r: seq<seq<int>>)
    ensures |r| == |tails|
    ensures forall j :: 0 <= j < |r| ==> r[j] == [v] + tails[j]
  {
    seq(|tails|, j requires 0 <= j < |tails| => [v] + tails[j])
  }

  /** One block of tuples per head value, heads in order. */
  function Blocks(heads: seq<int>, tails: seq<seq<int>>): seq<seq<int>>
  {
    if |heads| == 0 then [] else Prepend(heads[0], tails) + Blocks(heads[1..], tails)
  }

  /** `list(itertools.product(*ranges))`. */
  function Product(ranges: seq<seq<int>>): (tuples: seq<seq<int>>)
    ensures |tuples| == ProdLen(ranges)
    decreases |ranges|
  {
    if |ranges| == 0 then [[]]
    else
      var tails := Product(ranges[1..]);
      BlocksLength(ranges[0], tails);
      Blocks(ranges[0], tails)
  }

  // ---------------------------------------------------------------------
  // Size

  lemma {:induction false} BlocksLength(heads: seq<int>, tails: seq<seq<int>>)
    ensures |Blocks(heads, tails)| == |heads| * |tails|
    decreases |heads|
  {
    if |heads| > 0 {
      BlocksLength(heads[1..], tails);
      assert |heads| * |tails| == |tails| + (|heads| - 1) * |tails|;
    }
  }


  // ---------------------------------------------------------------------
  // Order

  lemma MulFacts(a: int, h: int, n: int)
    requires 0 <= a < h && n >= 0
    ensures a * n + n <= h * n
    ensures a > 0 ==> a * n - n == (a - 1) * n
  {
    assert h * n == a * n + n + (h - a - 1) * n;
  }

  /** Position `a * |tails| + b` of the blocks holds head `a` followed by tail `b`. */
  lemma {:induction false} BlocksIndex(heads: seq<int>, tails: seq<seq<int>>, a: int, b: int)
    requires 0 <= a < |heads| && 0 <= b < |tails|
    ensures a * |tails| + b < |Blocks(heads, tails)|
    ensures Blocks(heads, tails)[a * |tails| + b] == [heads[a]] + tails[b]
    decreases |heads|
  {
    var n := |tails|;
    BlocksLength(heads, tails);
    MulFacts(a, |heads|, n);
    var first := Prepend(heads[0], tails);
    var rest := Blocks(heads[1..], tails);
    assert Blocks(heads, tails) == first + rest;
    if a == 0 {
      assert (first + rest)[b] == first[b];
    } else {
      BlocksIndex(heads[1..], tails, a - 1, b);
      var k := a * n + b;
      assert k - n == (a - 1) * n + b;
      assert (first + rest)[k] == rest[k - n];
      assert heads[1..][a - 1] == heads[a];
    }
  }

  /**
   * Lexicographic order with the first range outermost: with `m` tuples
   * in the product of the other ranges, tuple `a * m + b` is value `a` of
   * the first range followed by tuple `b` of that product.
   */
  lemma ProductIndex(ranges: seq<seq<int>>, a: int, b: int)
    requires |ranges| > 0
    requires 0 <= a < |ranges[0]| && 0 <= b < ProdLen(ranges[1..])
    ensures |Product(ranges[1..])| == ProdLen(ranges[1..])
    ensures a * ProdLen(ranges[1..]) + b < |Product(ranges)|
    ensures Product(ranges)[a * ProdLen(ranges[1..]) + b] == [ranges[0][a]] + Product(ranges[1..])[b]
  {
    BlocksIndex(ranges[0], Product(ranges[1..]), a, b);
  }

  // ---------------------------------------------------------------------
  // Contents

  lemma {:induction false} BlocksMembership(heads: seq<int>, tails: seq<seq<int>>, x: seq<int>)
    ensures x in Blocks(heads, tails) <==> |x| > 0 && x[0] in heads && x[1..] in tails
    decreases |heads|
  {
    if |heads| > 0 {
      BlocksMembership(heads[1..], tails, x);
      if x in Prepend(heads[0], tails) {
        var j :| 0 <= j < |tails| && Prepend(heads[0], tails)[j] == x;
        assert x[1..] == tails[j];
      }
      if |x| > 0 && x[0] == heads[0] && x[1..] in tails {
        var j :| 0 <= j < |tails| && tails[j] == x[1..];
        assert Prepend(heads[0], tails)[j] == x;
      }
      if |x| > 0 {
        assert x[0] in heads <==> x[0] == heads[0] || x[0] in heads[1..] by {
          assert heads == [heads[0]] + heads[1..];
        }
      }
    }
  }

  /** A tuple is produced exactly when it picks one value from each range. */
  lemma {:induction false} ProductMembership(ranges: seq<seq<int>>, t: seq<int>)
    ensures t in Product(ranges) <==> InRanges(t, ranges)
    decreases |ranges|
  {
    if |ranges| == 0 {
    } else {
      BlocksMembership(ranges[0], Product(ranges[1..]), t);
      if |t| > 0 {
        ProductMembership(ranges[1..], t[1..]);
        if InRanges(t[1..], ranges[1..]) && t[0] in ranges[0] {
          forall i | 0 <= i < |t|
            ensures t[i] in ranges[i]
          {
            if i > 0 {
              assert t[1..][i - 1] == t[i];
            }
          }
        }
        if InRanges(t, ranges) {
          forall i | 0 <= i < |t| - 1
            ensures t[1..][i] in ranges[1..][i]
          {
            assert t[i + 1] in ranges[i + 1];
          }
        }
      }
    }
  }

  // ---------------------------------------------------------------------
  // No repeats

  lemma {:induction false} BlocksDistinct(heads: seq<int>, tails: seq<seq<int>>)
    requires Distinct(heads) && Distinct(tails)
    ensures Distinct(Blocks(heads, tails))
    decreases |heads|
  {
    if |heads| > 0 {
      var first := Prepend(heads[0], tails);
      forall i, j | 0 <= i < j < |first|
        ensures first[i] != first[j]
      {
        assert first[i][1..] == tails[i];
        assert first[j][1..] == tails[j];
      }
      BlocksDistinct(heads[1..], tails);
      forall x | x in first
        ensures x !in Blocks(heads[1..], tails)
      {
        BlocksMembership(heads[1..], tails, x);
        assert x[0] == heads[0];
        assert heads[0] !in heads[1..];
      }
      DistinctConcat(first, Blocks(heads[1..], tails));
    }
  }

  /** Ranges without repeats give a product without repeated tuples. */
  lemma {:induction false} ProductDistinct(ranges: seq<seq<int>>)
    requires forall i :: 0 <= i < |ranges| ==> Distinct(ranges[i])
    ensures Distinct(Product(ranges))
    decreases |ranges|
  {
    if |ranges| > 0 {
      ProductDistinct(ranges[1..]);
      BlocksDistinct(ranges[0], Product(ranges[1..]));
    }
  }
}

=== FILE: rangespec.dfy ===
/**
 * Decoding of one `-m` range spec (`modifier_to_range`): `n`, `a:b` or
 * `a:b:step`, each part read with Python's `int()`, into the list of values
 * of the Python `range` it builds.
 */
module RangeSpec {
  import opened Wrappers
  import opened Text
  import opened Numerals

  /** Why a spec is rejected: `int()` fails on a part, `range()` gets a zero step, or there are more than three parts. */
  datatype SpecError = NotAnInteger(part: string) | ZeroStep | TooManyParts

  /** `r` is `a, a + step, a + 2*step, ...` */
  predicate Progression(r: seq<int>, a: int, step: int)
  {
    forall i :: 0 <= i < |r| ==> r[i] == a + i * step
  }

  /** The inclusive interval `a..b` in ascending order (empty when `b < a`). */
  function Interval(a: int, b: int): seq<int>
  {
    seq(if a <= b then b - a + 1 else 0, i => a + i)
  }

  /** Extending a progression by one step at its front. */
  lemma ProgressionCons(rest: seq<int>, start: int, step: int)
    requires Progression(rest, start + step, step)
    ensures Progression([start] + rest, start, step)
    ensures (start + step) + |rest| * step == start + |[start] + rest| * step
  {
    forall i | 1 <= i <= |rest|
      ensures ([start] + rest)[i] == start + i * step
    {
      assert (i - 1) * step + step == i * step;
    }
    assert (|rest| + 1) * step == |rest| * step + step;
  }

  /**
   * Python's `range(start, stop, step)` for a non-zero step: the
   * progression from `start` that stays strictly before `stop`, and no
   * longer.
   */
  function PyRange(start: int, stop: int, step: int): (r: seq<int>)
    requires step != 0
    ensures Progression(r, start, step)
    ensures forall i :: 0 <= i < |r| ==> if step > 0 then r[i] < stop else r[i] > stop
    ensures if step > 0 then start + |r| * step >= stop else start + |r| * step <= stop
    decreases if step > 0 then stop - start else start - stop
  {
    if (step > 0 && start < stop) || (step < 0 && start > stop) then
      var rest := PyRange(start + step, stop, step);
      ProgressionCons(rest, start, step);
      [start] + rest
    else []
  }

  /** The three-part stop as `modifier_to_range` computes it: `b + 1`, whatever the step's sign. */
  function SteppedStop(b: int): int
  {
    b + 1
  }

  /** The stop that makes `b` itself reachable for either sign of the step. */
  function InclusiveStop(b: int, step: int): int
  {
    if step > 0 then b + 1 else b - 1
  }

  /**
   * The range built from the converted parts, with the stop of `a:b:step`
   * either as written (`b + 1`) or corrected for negative steps.
   */
  function RangeOf(mods: seq<int>, corrected: bool): Result<seq<int>, SpecError>
  {
    if |mods| == 1 then Ok(PyRange(1, mods[0] + 1, 1))
    else if |mods| == 2 then Ok(PyRange(mods[0], mods[1] + 1, 1))
    else if |mods| == 3 then
      if mods[2] == 0 then Err(ZeroStep)
      else if corrected then Ok(PyRange(mods[0], InclusiveStop(mods[1], mods[2]), mods[2]))
      else Ok(PyRange(mods[0], SteppedStop(mods[1]), mods[2]))
    else Err(TooManyParts)
  }

  /** `modifier_to_range(s)`, every part converted before the number of parts is looked at. */
  function DecodeWith(s: string, corrected: bool): Result<seq<int>, SpecError>
  {
    match ParseInts(Split(s, ":"))
    case Err(bad) => Err(NotAnInteger(bad))
    case Ok(mods) => RangeOf(mods, corrected)
  }

  /**
   * `modifier_to_range(s)` as written: it succeeds exactly when every part
   * is an integer, there are at most three, and a third one is not 0.
   */
  function DecodeSpec(s: string): (r: Result<seq<int>, SpecError>)
    ensures r.Ok? <==>
              && ParseInts(Split(s, ":")).Ok?
              && |Split(s, ":")| <= 3
              && !(|Split(s, ":")| == 3 && ParseInts(Split(s, ":")).value[2] == 0)
  {
    DecodeWith(s, false)
  }

  /** `modifier_to_range(s)` with the stop of `a:b:step` corrected for negative steps. */
  function DecodeSpecInclusive(s: string): Result<seq<int>, SpecError>
  {
    DecodeWith(s, true)
  }

  /**
   * A spec is rejected as not an integer exactly when some part is not
   * one, and the part named is the first such part.
   */
  lemma DecodeRejectsNonInteger(s: string)
    ensures forall i :: FirstUnparsable(Split(s, ":"), i) ==> DecodeSpec(s) == Err(NotAnInteger(Split(s, ":")[i]))
    ensures DecodeSpec(s).Err? && DecodeSpec(s).error.NotAnInteger? ==> exists i :: FirstUnparsable(Split(s, ":"), i)
  {
    var parts := Split(s, ":");
    forall i | FirstUnparsable(parts, i)
      ensures DecodeSpec(s) == Err(NotAnInteger(parts[i]))
    {
      ParseIntsStopsAtFirstBad(parts, i);
    }
    var p := ParseInts(parts);
    if p.Ok? {
      var r := RangeOf(p.value, false);
      assert r.Err? ==> r.error == ZeroStep || r.error == TooManyParts;
    }
  }

  // ---------------------------------------------------------------------
  // Decoding well-formed specs

  /** The text of a spec whose parts are the given integers. */
  function SpecText(ns: seq<int>): string
  {
    Join(":", Strs(ns))
  }

  /** A spec made of integers splits and converts back to those integers. */
  lemma {:induction false} SpecTextParts(ns: seq<int>)
    requires |ns| >= 1
    ensures Split(SpecText(ns), ":") == Strs(ns)
    ensures ParseInts(Strs(ns)) == Ok(ns)
  {
    var parts := Strs(ns);
    forall i | 0 <= i < |parts|
      ensures ':' !in parts[i]
    {
      StrsElement(ns, i);
      IntToStringAvoids(ns[i], ':');
    }
    SplitJoin(parts, ':');
    ParseIntsOfStrs(ns);
  }

  lemma {:induction false} StrsElement(vs: seq<int>, i: int)
    requires 0 <= i < |vs|
    ensures Strs(vs)[i] == IntToString(vs[i])
    decreases |vs|
  {
    if i > 0 {
      StrsElement(vs[1..], i - 1);
    }
  }

  lemma SpecTextOne(a: int)
    ensures SpecText([a]) == IntToString(a)
  {
  }

  lemma SpecTextTwo(a: int, b: int)
    ensures SpecText([a, b]) == IntToString(a) + ":" + IntToString(b)
  {
    assert [a, b][1..] == [b];
    assert Strs([a, b]) == [IntToString(a), IntToString(b)];
    assert [IntToString(a), IntToString(b)][1..] == [IntToString(b)];
    assert Join(":", [IntToString(a), IntToString(b)]) == IntToString(a) + ":" + Join(":", [IntToString(b)]);
  }

  lemma SpecTextThree(a: int, b: int, step: int)
    ensures SpecText([a, b, step]) == IntToString(a) + ":" + IntToString(b) + ":" + IntToString(step)
  {
    assert [a, b, step][1..] == [b, step];
    assert Strs([a, b, step]) == [IntToString(a)] + Strs([b, step]);
    SpecTextTwo(b, step);
  }

  /** A unit-step range is the interval up to one before its stop. */
  lemma UnitRangeIsInterval(a: int, stop: int)
    ensures PyRange(a, stop, 1) == Interval(a, stop - 1)
  {
    var r := PyRange(a, stop, 1);
    if |r| > 0 {
      assert r[|r| - 1] < stop;
    }
  }

  /** The `:`-separated parts of `s` are read by `int()` as exactly `ns`. */
  predicate PartsAre(s: string, ns: seq<int>)
  {
    ParseInts(Split(s, ":")) == Ok(ns)
  }

  /** Every written form of `n` (spaces, sign, underscores allowed) decodes to `1..n` inclusive. */
  lemma DecodeCount(s: string, n: int)
    requires PartsAre(s, [n])
    ensures DecodeSpec(s) == Ok(Interval(1, n))
  {
    UnitRangeIsInterval(1, n + 1);
  }

  /** `a:b` decodes to `a..b` inclusive. */
  lemma DecodeBounds(s: string, a: int, b: int)
    requires PartsAre(s, [a, b])
    ensures DecodeSpec(s) == Ok(Interval(a, b))
  {
    UnitRangeIsInterval(a, b + 1);
  }

  /**
   * `a:b:step` with a positive step decodes to the progression from `a`
   * by `step` that stays within `b`, and is as long as it can be.
   */
  lemma DecodeStepped(s: string, a: int, b: int, step: int)
    requires PartsAre(s, [a, b, step]) && step > 0
    ensures var r := DecodeSpec(s);
            && r.Ok?
            && Progression(r.value, a, step)
            && (forall i :: 0 <= i < |r.value| ==> r.value[i] <= b)
            && a + |r.value| * step > b
  {
  }

  /** `a:b:0` is rejected, as `range()` rejects a zero step. */
  lemma DecodeZeroStep(s: string, a: int, b: int)
    requires PartsAre(s, [a, b, 0])
    ensures DecodeSpec(s) == Err(ZeroStep)
  {
  }

  /** The canonical text `str(a):str(b):…` of a spec has exactly those parts. */
  lemma WrittenSpecParts(ns: seq<int>)
    requires 1 <= |ns| <= 3
    ensures |ns| == 1 ==> PartsAre(IntToString(ns[0]), ns)
    ensures |ns| == 2 ==> PartsAre(IntToString(ns[0]) + ":" + IntToString(ns[1]), ns)
    ensures |ns| == 3 ==> PartsAre(IntToString(ns[0]) + ":" + IntToString(ns[1]) + ":" + IntToString(ns[2]), ns)
  {
    SpecTextParts(ns);
    if |ns| == 1 {
      SpecTextOne(ns[0]);
      assert ns == [ns[0]];
    } else if |ns| == 2 {
      SpecTextTwo(ns[0], ns[1]);
      assert ns == [ns[0], ns[1]];
    } else {
      SpecTextThree(ns[0], ns[1], ns[2]);
      assert ns == [ns[0], ns[1], ns[2]];
    }
  }

  /** Four or more integer parts are rejected. */
  lemma DecodeTooManyParts(s: string, ns: seq<int>)
    requires PartsAre(s, ns) && |ns| >= 4
    ensures DecodeSpec(s) == Err(TooManyParts)
  {
  }

  /** The empty spec is rejected by `int("")`. */
  lemma DecodeEmpty()
    ensures DecodeSpec("") == Err(NotAnInteger(""))
  {
    assert Split("", ":") == [""];
    assert ParseInt("").None?;
  }

  // ---------------------------------------------------------------------
  // Negative steps

  /**
   * As written, `a:b:step` with a negative step stops strictly above
   * `b + 1`: neither `b` nor `b + 1` is ever produced.
   */
  lemma DecodeNegativeStep(s: string, a: int, b: int, step: int)
    requires PartsAre(s, [a, b, step]) && step < 0
    ensures var r := DecodeSpec(s);
            && r.Ok?
            && Progression(r.value, a, step)
            && (forall i :: 0 <= i < |r.value| ==> r.value[i] > b + 1)
            && a + |r.value| * step <= b + 1
  {
  }

  /** The one progression from 5 by -1 that stays above 2 and stops just before it. */
  lemma CountDownToThree(r: seq<int>)
    requires Progression(r, 5, -1)
    requires forall i :: 0 <= i < |r| ==> r[i] > 2
    requires 5 + |r| * -1 <= 2
    ensures r == [5, 4, 3]
  {
    assert |r| >= 3;
    assert r[|r| - 1] == 5 - (|r| - 1);
  }

  /** `5:1:-1` decodes to `5, 4, 3`: the last two values of `5..1` are lost. */
  lemma NegativeStepDropsEnd()
    ensures DecodeSpec("5:1:-1") == Ok([5, 4, 3])
  {
    assert "5:1:-1" == IntToString(5) + ":" + IntToString(1) + ":" + IntToString(-1);
    WrittenSpecParts([5, 1, -1]);
    DecodeNegativeStep("5:1:-1", 5, 1, -1);
    CountDownToThree(DecodeSpec("5:1:-1").value);
  }

  /**
   * With the corrected stop, `a:b:step` yields the progression from `a`
   * that stays between `a` and `b` inclusive, for either sign of the
   * step, and is as long as it can be.
   */
  lemma DecodeInclusiveStepped(s: string, a: int, b: int, step: int)
    requires PartsAre(s, [a, b, step]) && step != 0
    ensures var r := DecodeSpecInclusive(s);
            && r.Ok?
            && Progression(r.value, a, step)
            && (forall i :: 0 <= i < |r.value| ==> if step > 0 then r.value[i] <= b else r.value[i] >= b)
            && (if step > 0 then a + |r.value| * step > b else a + |r.value| * step < b)
  {
  }

  lemma CountDownToOne(r: seq<int>)
    requires Progression(r, 5, -1)
    requires forall i :: 0 <= i < |r| ==> r[i] >= 1
    requires 5 + |r| * -1 < 1
    ensures r == [5, 4, 3, 2, 1]
  {
    assert |r| >= 5;
    assert r[|r| - 1] == 5 - (|r| - 1);
  }

  /** The corrected decoder keeps the whole of `5..1`. */
  lemma InclusiveNegativeStep()
    ensures DecodeSpecInclusive("5:1:-1") == Ok([5, 4, 3, 2, 1])
  {
    assert "5:1:-1" == IntToString(5) + ":" + IntToString(1) + ":" + IntToString(-1);
    WrittenSpecParts([5, 1, -1]);
    DecodeInclusiveStepped("5:1:-1", 5, 1, -1);
    CountDownToOne(DecodeSpecInclusive("5:1:-1").value);
  }

  /** The corrected decoder agrees with the original on every spec but `a:b:step` with `step < 0`. */
  lemma InclusiveAgreesOnPositiveSteps(s: string)
    requires var parts := Split(s, ":"); var p := ParseInts(parts);
             !(p.Ok? && |parts| == 3 && p.value[2] < 0)
    ensures DecodeSpecInclusive(s) == DecodeSpec(s)
  {
    var p := ParseInts(Split(s, ":"));
    if p.Ok? && |p.value| == 3 && p.value[2] != 0 {
      assert InclusiveStop(p.value[1], p.value[2]) == SteppedStop(p.value[1]);
    }
  }

  // ---------------------------------------------------------------------
  // Distinct values

  /** A Python range never repeats a value. */
  lemma PyRangeDistinct(start: int, stop: int, step: int)
    requires step != 0
    ensures var r := PyRange(start, stop, step);
            forall i, j :: 0 <= i < j < |r| ==> r[i] != r[j]
  {
    var r := PyRange(start, stop, step);
    forall i, j | 0 <= i < j < |r|
      ensures r[i] != r[j]
    {
      assert r[j] - r[i] == (j - i) * step;
    }
  }

  lemma RangeOfDistinct(mods: seq<int>, corrected: bool)
    requires RangeOf(mods, corrected).Ok?
    ensures var r := RangeOf(mods, corrected).value;
            forall i, j :: 0 <= i < j < |r| ==> r[i] != r[j]
  {
    var start, stop, step;
    if |mods| == 1 {
      start, stop, step := 1, mods[0] + 1, 1;
    } else if |mods| == 2 {
      start, stop, step := mods[0], mods[1] + 1, 1;
    } else if corrected {
      start, stop, step := mods[0], InclusiveStop(mods[1], mods[2]), mods[2];
    } else {
      start, stop, step := mods[0], SteppedStop(mods[1]), mods[2];
    }
    assert RangeOf(mods, corrected).value == PyRange(start, stop, step);
    PyRangeDistinct(start, stop, step);
  }

  /** Every range a spec decodes to is free of repeats. */
  lemma DecodedDistinct(s: string)
    requires DecodeSpec(s).Ok?
    ensures var r := DecodeSpec(s).value;
            forall i, j :: 0 <= i < j < |r| ==> r[i] != r[j]
  {
    var mods := ParseInts(Split(s, ":")).value;
    assert DecodeSpec(s) == RangeOf(mods, false);
    RangeOfDistinct(mods, false);
  }
}

=== FILE: registry.dfy ===
/**
 * The registry of running orchestrators (`add_pid` / `remove_pid`): a
 * text file with one process id per line. The file is `None` when it
 * does not exist.
 */
module Registry {
  import opened Wrappers
  import opened Seqs
  import opened Text
  import opened Numerals

  /** Why `remove_pid` fails: no file, a line `int()` rejects, or the id is not listed. */
  datatype RegistryError = RegistryMissing | BadLine(line: string) | NotRegistered

  /** The lines `remove_pid` writes: `f"{p}\n"` for each id, in order. */
  function PidLines(pids: seq<int>): (lines: seq<string>)
    ensures |lines| == |pids|
  {
    if |pids| == 0 then [] else [IntToString(pids[0]) + "\n"] + PidLines(pids[1..])
  }

  /** The registry file holding `pids`. */
  function RenderPids(pids: seq<int>): string
  {
    Concat(PidLines(pids))
  }

  /** `[int(line) for line in readlines()]`: the ids, or the first line that is not one. */
  function ReadPids(text: string): (r: Result<seq<int>, string>)
    ensures r.Ok? ==> |r.value| == |ReadLines(text)|
    ensures r.Err? ==> r.error in ReadLines(text) && ParseInt(r.error).None?
  {
    ParseInts(ReadLines(text))
  }

  /** `add_pid`: the file, created empty if missing, with `f"{pid}\n"` appended. */
  function AddPid(file: Option<string>, pid: int): (text: string)
    ensures file.Some? ==> |file.value| < |text| && text[..|file.value|] == file.value
  {
    var prior := match file case None => "" case Some(t) => t;
    prior + IntToString(pid) + "\n"
  }

  /** `pids` without the element at index `i`, the others in their order. */
  function DeleteAt(pids: seq<int>, i: nat): (rest: seq<int>)
    requires i < |pids|
    ensures |rest| == |pids| - 1
    ensures multiset(rest) == multiset(pids) - multiset{pids[i]}
    ensures forall k :: 0 <= k < |rest| ==> rest[k] == pids[if k < i then k else k + 1]
  {
    var rest := pids[..i] + pids[i + 1..];
    calc {
      multiset(pids);
      { assert pids == pids[..i] + [pids[i]] + pids[i + 1..]; }
      multiset(pids[..i]) + multiset{pids[i]} + multiset(pids[i + 1..]);
    }
    forall k | 0 <= k < |rest|
      ensures rest[k] == pids[if k < i then k else k + 1]
    {
      if k < i {
        assert rest[k] == pids[..i][k];
      } else {
        assert rest[k] == pids[i + 1..][k - i];
      }
    }
    rest
  }

  /**
   * `list.remove(pid)`: drop the first occurrence, keeping the order of
   * the rest; `None` (Python raises `ValueError`) if there is none.
   */
  function RemoveFirst(pids: seq<int>, pid: int): (r: Option<seq<int>>)
    ensures r.None? <==> pid !in pids
    ensures r.Some? ==> multiset(r.value) == multiset(pids) - multiset{pid}
    ensures r.Some? ==> r.value == DeleteAt(pids, IndexOf(pids, pid))
  {
    if pid !in pids then None else Some(DeleteAt(pids, IndexOf(pids, pid)))
  }

  /**
   * `remove_pid`: read every id, remove the first occurrence of `pid`,
   * write the rest back. A failure leaves the file as it was.
   */
  function RemovePid(file: Option<string>, pid: int): (r: Result<string, RegistryError>)
    ensures file.None? ==> r == Err(RegistryMissing)
    ensures file.Some? && ReadPids(file.value).Err? ==> r == Err(BadLine(ReadPids(file.value).error))
    ensures file.Some? && ReadPids(file.value).Ok? ==>
              (r == Err(NotRegistered) <==> pid !in ReadPids(file.value).value)
    ensures file.Some? && ReadPids(file.value).Ok? ==>
              (r.Ok? <==> pid in ReadPids(file.value).value)
    ensures r.Ok? ==>
              r.value == RenderPids(DeleteAt(ReadPids(file.value).value, IndexOf(ReadPids(file.value).value, pid)))
    ensures r.Ok? ==>
              var pids := ReadPids(file.value).value;
              ReadPids(r.value) == Ok(DeleteAt(pids, IndexOf(pids, pid)))
  {
    match file
    case None => Err(RegistryMissing)
    case Some(text) =>
      match ReadPids(text)
      case Err(line) => Err(BadLine(line))
      case Ok(pids) =>
        match RemoveFirst(pids, pid)
        case None => Err(NotRegistered)
        case Some(rest) =>
          ReadRenderPids(rest);
          Ok(RenderPids(rest))
  }

  // ---------------------------------------------------------------------
  // Properties

  lemma {:induction false} ReadLinesOfRender(pids: seq<int>)
    ensures ReadLines(RenderPids(pids)) == PidLines(pids)
    decreases |pids|
  {
    if |pids| > 0 {
      var line := IntToString(pids[0]) + "\n";
      IntToStringAvoids(pids[0], '\n');
      ReadLinesOneLine(IntToString(pids[0]));
      assert RenderPids(pids) == line + RenderPids(pids[1..]);
      ReadLinesAppend(line, RenderPids(pids[1..]));
      ReadLinesOfRender(pids[1..]);
    }
  }

  lemma {:induction false} ParsePidLines(pids: seq<int>)
    ensures ParseInts(PidLines(pids)) == Ok(pids)
    decreases |pids|
  {
    if |pids| > 0 {
      var lines := PidLines(pids);
      assert lines[0] == IntToString(pids[0]) + "\n";
      assert lines[1..] == PidLines(pids[1..]);
      ParseIntOfIntToString(pids[0], "\n");
      ParsePidLines(pids[1..]);
      assert ParseInts(lines) == Ok([pids[0]] + pids[1..]);
      assert [pids[0]] + pids[1..] == pids;
    }
  }

  /** The file as written reads back as the same ids, in the same order. */
  lemma ReadRenderPids(pids: seq<int>)
    ensures ReadPids(RenderPids(pids)) == Ok(pids)
  {
    ReadLinesOfRender(pids);
    ParsePidLines(pids);
  }

  lemma {:induction false} PidLinesAppend(pids: seq<int>, pid: int)
    ensures PidLines(pids + [pid]) == PidLines(pids) + [IntToString(pid) + "\n"]
    decreases |pids|
  {
    if |pids| > 0 {
      assert (pids + [pid])[0] == pids[0];
      assert (pids + [pid])[1..] == pids[1..] + [pid];
      PidLinesAppend(pids[1..], pid);
    } else {
      assert pids + [pid] == [pid];
    }
  }

  lemma RenderPidsAppend(pids: seq<int>, pid: int)
    ensures RenderPids(pids + [pid]) == RenderPids(pids) + IntToString(pid) + "\n"
  {
    PidLinesAppend(pids, pid);
    ConcatAppend(PidLines(pids), IntToString(pid) + "\n");
  }

  /** `add_pid` puts the new id at the end and keeps every earlier one. */
  lemma AddPidAppends(pids: seq<int>, pid: int)
    ensures AddPid(Some(RenderPids(pids)), pid) == RenderPids(pids + [pid])
    ensures ReadPids(AddPid(Some(RenderPids(pids)), pid)) == Ok(pids + [pid])
  {
    RenderPidsAppend(pids, pid);
    ReadRenderPids(pids + [pid]);
  }

  /** `add_pid` on a missing file creates it holding just that id. */
  lemma AddPidCreates(pid: int)
    ensures ReadPids(AddPid(None, pid)) == Ok([pid])
  {
    AddPidAppends([], pid);
    assert AddPid(None, pid) == AddPid(Some(RenderPids([])), pid);
    assert [] + [pid] == [pid];
  }

  /**
   * A run that registers and then deregisters itself leaves a registry
   * that did not list it as it found it.
   */
  lemma RegisterThenRemove(pids: seq<int>, pid: int)
    requires pid !in pids
    ensures RemovePid(Some(AddPid(Some(RenderPids(pids)), pid)), pid) == Ok(RenderPids(pids))
  {
    var grown := pids + [pid];
    AddPidAppends(pids, pid);
    assert grown == pids + [pid] + [];
    IndexOfAfter(pids, pid, []);
    assert DeleteAt(grown, |pids|) == pids;
  }

  lemma RenderPidsEndsWithNewline(pids: seq<int>)
    ensures EmptyOrEndsWith(RenderPids(pids), '\n')
  {
    if |pids| > 0 {
      var n := |pids| - 1;
      assert pids == pids[..n] + [pids[n]];
      RenderPidsAppend(pids[..n], pids[n]);
    }
  }

  lemma BlankLineIsALine(pids: seq<int>)
    ensures ReadLines(RenderPids(pids) + "\n") == PidLines(pids) + ["\n"]
  {
    ReadLinesOfRender(pids);
    RenderPidsEndsWithNewline(pids);
    ReadLinesAppend(RenderPids(pids), "\n");
    assert ReadLines("\n") == ["\n"] by {
      assert "\n"[1..] == "";
    }
  }

  lemma BlankLineIsNotAnInteger()
    ensures ParseInt("\n") == None
  {
    assert TrimLeft("\n") == "" by {
      assert "\n"[1..] == "";
    }
  }

  /** A blank line in the registry makes `remove_pid` fail instead of skipping it. */
  lemma BlankLineBreaksRemoval(pids: seq<int>, pid: int)
    ensures RemovePid(Some(RenderPids(pids) + "\n"), pid) == Err(BadLine("\n"))
  {
    var lines := PidLines(pids) + ["\n"];
    BlankLineIsALine(pids);
    BlankLineIsNotAnInteger();
    ParsePidLines(pids);
    assert FirstUnparsable(lines, |pids|);
    ParseIntsStopsAtFirstBad(lines, |pids|);
  }
}

=== FILE: seqs.dfy ===
/** Small facts about sequences shared by the other modules. */
module Seqs {

  /** No element occurs twice. */
  predicate Distinct<T(==)>(s: seq<T>)
  {
    forall i, j :: 0 <= i < j < |s| ==> s[i] != s[j]
  }

  /** Position of the first occurrence of `x`, as Python's `list.index`. */
  function IndexOf<T(==)>(s: seq<T>, x: T): (i: nat)
    requires x in s
    ensures i < |s| && s[i] == x && x !in s[..i]
  {
    if s[0] == x then 0
    else
      assert x in s[1..] by {
        assert s == [s[0]] + s[1..];
      }
      var j := IndexOf(s[1..], x);
      assert s[..j + 1] == [s[0]] + s[1..][..j];
      j + 1
  }

  lemma DistinctConcat<T>(a: seq<T>, b: seq<T>)
    requires Distinct(a) && Distinct(b)
    requires forall x :: x in a ==> x !in b
    ensures Distinct(a + b)
  {
    forall i, j | 0 <= i < j < |a + b|
      ensures (a + b)[i] != (a + b)[j]
    {
      if i < |a| && j >= |a| {
        assert (a + b)[i] in a;
        assert (a + b)[j] == b[j - |a|];
      }
    }
  }

  /** The first `x` after a prefix without `x` is at the end of that prefix. */
  lemma {:induction false} IndexOfAfter<T>(before: seq<T>, x: T, rest: seq<T>)
    requires x !in before
    ensures IndexOf(before + [x] + rest, x) == |before|
    decreases |before|
  {
    if |before| > 0 {
      assert (before + [x] + rest)[1..] == before[1..] + [x] + rest;
      IndexOfAfter(before[1..], x, rest);
    }
  }
}

=== FILE: substitution.dfy ===
/**
 * Placeholder substitution in `gen_cmds`: for slot `i = 0, 1, ...` in
 * turn, every occurrence of `"%" + str(i)` in the command is replaced by
 * `str(v_i)` with Python's `str.replace`.
 *
 * Beside it stands a single left-to-right reading of the template
 * (`Tokenize`): `%` followed by one digit `d` below the slot count is slot
 * `d`, anything else is literal text. The replace loop agrees with that
 * reading whenever the template never has `%%`; with `%%` an earlier
 * value can be consumed by a later replacement.
 */
module Substitution {
  import opened Text
  import opened Numerals

  /** Placeholder of slot `i`: `"%" + str(i)`. */
  function Token(i: nat): string
  {
    "%" + IntToString(i)
  }

  /** The command after the replace loop has handled slots `0 .. i-1`. */
  function SubstituteUpTo(cmd: string, values: seq<int>, i: nat): string
    requires i <= |values|
  {
    if i == 0 then cmd
    else Replace(SubstituteUpTo(cmd, values, i - 1), Token(i - 1), IntToString(values[i - 1]))
  }

  /**
   * The command `gen_cmds` builds for one tuple of values; a template
   * holding none of the placeholders comes back as it was.
   */
  function Substitute(cmd: string, values: seq<int>): (r: string)
    ensures (forall d :: 0 <= d < |values| ==> !Occurs(cmd, Token(d))) ==> r == cmd
  {
    SubstituteNoPlaceholders(cmd, values, |values|);
    SubstituteUpTo(cmd, values, |values|)
  }

  // ---------------------------------------------------------------------
  // The single-pass reading of a template

  datatype Piece = Lit(c: char) | Slot(index: nat)

  /** Every slot of `ps` is below `n`. */
  predicate SlotsBelow(ps: seq<Piece>, n: nat)
  {
    forall j :: 0 <= j < |ps| && ps[j].Slot? ==> ps[j].index < n
  }

  /** `c` is the digit of one of the first `k` slots. */
  predicate IsSlotDigit(c: char, k: nat)
  {
    IsDigit(c) && DigitValue(c) < k
  }

  /** The template read left to right, with `k` slots. */
  function Tokenize(s: string, k: nat): (ps: seq<Piece>)
    ensures SlotsBelow(ps, k) && SlotsBelow(ps, 10)
    decreases |s|
  {
    if |s| == 0 then []
    else if |s| >= 2 && s[0] == '%' && IsSlotDigit(s[1], k) then [Slot(DigitValue(s[1]))] + Tokenize(s[2..], k)
    else [Lit(s[0])] + Tokenize(s[1..], k)
  }

  function PieceText(p: Piece, texts: seq<string>): string
    requires p.Slot? ==> p.index < |texts|
  {
    match p
    case Lit(c) => [c]
    case Slot(d) => texts[d]
  }

  /** The pieces written out, slot `d` as `texts[d]`. */
  function RenderWith(ps: seq<Piece>, texts: seq<string>): string
    requires SlotsBelow(ps, |texts|)
  {
    if |ps| == 0 then "" else PieceText(ps[0], texts) + RenderWith(ps[1..], texts)
  }

  /** Slot texts once slots `0 .. done-1` are substituted and the rest still show their placeholder. */
  function SlotTexts(values: seq<int>, done: nat): (texts: seq<string>)
    ensures |texts| == |values|
  {
    seq(|values|, d requires 0 <= d < |values| => if d < done then IntToString(values[d]) else Token(d))
  }

  /** The command with every slot of the single-pass reading replaced by its value. */
  function SubstituteTokens(cmd: string, values: seq<int>): string
  {
    RenderWith(Tokenize(cmd, |values|), SlotTexts(values, |values|))
  }

  // ---------------------------------------------------------------------
  // Facts about the pieces

  /** No `%` is immediately followed by another `%`. */
  predicate NoDoublePercent(s: string)
  {
    forall i :: 0 <= i < |s| - 1 ==> !(s[i] == '%' && s[i + 1] == '%')
  }

  /** A literal `%` is the last piece or is followed by a literal that is no slot digit. */
  predicate LoneMarkersClear(ps: seq<Piece>, k: nat)
  {
    forall j :: 0 <= j < |ps| - 1 && ps[j] == Lit('%') ==> ps[j + 1].Lit? && !IsSlotDigit(ps[j + 1].c, k)
  }

  /** Each slot text is still its placeholder, or holds no `%`. */
  predicate TextsClear(texts: seq<string>)
  {
    forall d :: 0 <= d < |texts| ==> texts[d] == Token(d) || '%' !in texts[d]
  }

  lemma TokenOfDigit(d: nat)
    requires d < 10
    ensures Token(d) == ['%', DigitChar(d)]
  {
  }

  lemma {:induction false} TokenizeClear(s: string, k: nat)
    requires NoDoublePercent(s)
    ensures LoneMarkersClear(Tokenize(s, k), k)
    decreases |s|
  {
    if |s| > 0 {
      var ps := Tokenize(s, k);
      if |s| >= 2 && s[0] == '%' && IsSlotDigit(s[1], k) {
        TokenizeClear(s[2..], k);
        assert ps[1..] == Tokenize(s[2..], k);
      } else {
        TokenizeClear(s[1..], k);
        assert ps[1..] == Tokenize(s[1..], k);
        if s[0] == '%' && |s| >= 2 {
          assert s[1] != '%';
          assert Tokenize(s[1..], k)[0] == Lit(s[1]);
        }
      }
    }
  }

  /** Writing the pieces back with every slot as its placeholder gives the template. */
  lemma {:induction false} TokenizeRoundTrip(s: string, k: nat, texts: seq<string>)
    requires k <= |texts|
    requires forall d :: 0 <= d < |texts| ==> texts[d] == Token(d)
    ensures RenderWith(Tokenize(s, k), texts) == s
    decreases |s|
  {
    if |s| > 0 {
      var ps := Tokenize(s, k);
      if |s| >= 2 && s[0] == '%' && IsSlotDigit(s[1], k) {
        TokenizeRoundTrip(s[2..], k, texts);
        assert ps[1..] == Tokenize(s[2..], k);
        var d := DigitValue(s[1]);
        DigitCharValue(d, s[1]);
        TokenOfDigit(d);
        assert s == [s[0], s[1]] + s[2..];
      } else {
        TokenizeRoundTrip(s[1..], k, texts);
        assert ps[1..] == Tokenize(s[1..], k);
        assert s == [s[0]] + s[1..];
      }
    }
  }

  /** Slot texts after replacing slot `i`'s placeholder, if it still shows, by `x`. */
  function After(texts: seq<string>, i: nat, x: string): (r: seq<string>)
    requires i < |texts|
    ensures |r| == |texts|
  {
    if texts[i] == Token(i) then texts[i := x] else texts
  }

  /** A literal character in front of the rest of the text. */
  lemma {:induction false} LitStep(c: char, k: nat, i: nat, x: string, tail: string)
    requires i < k <= 10
    requires c == '%' ==> |tail| == 0 || !IsSlotDigit(tail[0], k)
    ensures Replace([c] + tail, Token(i), x) == [c] + Replace(tail, Token(i), x)
  {
    TokenOfDigit(i);
    DigitCharValue(i, '0');
    var s := [c] + tail;
    if c != '%' {
      ReplaceSkipsPrefix([c], tail, Token(i), x);
    } else if |tail| == 0 {
      assert s == "%";
    } else {
      assert s[..2] == ['%', tail[0]];
      assert s[1..] == tail;
    }
  }

  /** A slot whose placeholder still shows, in front of the rest of the text. */
  lemma {:induction false} PlaceholderStep(d: nat, i: nat, x: string, tail: string)
    requires d < 10 && i < 10
    ensures Replace(Token(d) + tail, Token(i), x) ==
            (if d == i then x else Token(d)) + Replace(tail, Token(i), x)
  {
    TokenOfDigit(d);
    TokenOfDigit(i);
    var s := Token(d) + tail;
    if d == i {
      assert s[..2] == Token(i);
      assert s[2..] == tail;
    } else {
      DigitCharValue(d, '0');
      DigitCharValue(i, '0');
      assert s[..2] == ['%', DigitChar(d)];
      assert s[1..] == [DigitChar(d)] + tail;
      ReplaceSkipsPrefix([DigitChar(d)], tail, Token(i), x);
      assert ['%'] + ([DigitChar(d)] + Replace(tail, Token(i), x)) == Token(d) + Replace(tail, Token(i), x);
    }
  }

  /** One piece in front of the rest of the text. */
  lemma {:induction false} PieceStep(p: Piece, texts: seq<string>, i: nat, x: string, tail: string)
    requires |texts| <= 10 && i < |texts|
    requires p.Slot? ==> p.index < |texts|
    requires TextsClear(texts)
    requires p == Lit('%') ==> |tail| == 0 || !IsSlotDigit(tail[0], |texts|)
    ensures Replace(PieceText(p, texts) + tail, Token(i), x) ==
            PieceText(p, After(texts, i, x)) + Replace(tail, Token(i), x)
  {
    match p
    case Lit(c) =>
      LitStep(c, |texts|, i, x, tail);
    case Slot(d) =>
      if texts[d] == Token(d) {
        PlaceholderStep(d, i, x, tail);
      } else {
        ReplaceSkipsPrefix(texts[d], tail, Token(i), x);
      }
  }

  /**
   * One pass of the replace loop over rendered pieces: the placeholder of
   * slot `i`, if it is still showing, becomes `x`; nothing else changes.
   */
  lemma {:induction false} ReplaceStep(ps: seq<Piece>, texts: seq<string>, i: nat, x: string)
    requires |texts| <= 10 && i < |texts|
    requires SlotsBelow(ps, |texts|)
    requires LoneMarkersClear(ps, |texts|)
    requires TextsClear(texts)
    ensures Replace(RenderWith(ps, texts), Token(i), x) == RenderWith(ps, After(texts, i, x))
    decreases |ps|
  {
    if |ps| > 0 {
      var rest := ps[1..];
      assert SlotsBelow(rest, |texts|);
      assert LoneMarkersClear(rest, |texts|);
      ReplaceStep(rest, texts, i, x);
      var tail := RenderWith(rest, texts);
      if ps[0] == Lit('%') && |rest| > 0 {
        assert tail == [rest[0].c] + RenderWith(rest[1..], texts);
      }
      PieceStep(ps[0], texts, i, x, tail);
    }
  }

  // ---------------------------------------------------------------------
  // Properties of the replace loop

  /**
   * Without `%%` in the template and with at most ten slots, the replace
   * loop computes exactly the single-pass substitution.
   */
  lemma {:induction false} ReplaceLoopMatchesTokens(cmd: string, values: seq<int>, i: nat)
    requires NoDoublePercent(cmd)
    requires |values| <= 10 && i <= |values|
    ensures SubstituteUpTo(cmd, values, i) == RenderWith(Tokenize(cmd, |values|), SlotTexts(values, i))
  {
    var ps := Tokenize(cmd, |values|);
    if i == 0 {
      var texts := SlotTexts(values, 0);
      assert forall d :: 0 <= d < |texts| ==> texts[d] == Token(d);
      TokenizeRoundTrip(cmd, |values|, texts);
    } else {
      var prev := SubstituteUpTo(cmd, values, i - 1);
      assert SubstituteUpTo(cmd, values, i) == Replace(prev, Token(i - 1), IntToString(values[i - 1]));
      ReplaceLoopMatchesTokens(cmd, values, i - 1);
      TokenizeClear(cmd, |values|);
      SlotStep(ps, values, i - 1);
    }
  }

  /** One round of the replace loop fills slot `i` of the single-pass reading. */
  lemma SlotStep(ps: seq<Piece>, values: seq<int>, i: nat)
    requires |values| <= 10 && i < |values|
    requires SlotsBelow(ps, |values|)
    requires LoneMarkersClear(ps, |values|)
    ensures Replace(RenderWith(ps, SlotTexts(values, i)), Token(i), IntToString(values[i]))
         == RenderWith(ps, SlotTexts(values, i + 1))
  {
    var texts := SlotTexts(values, i);
    forall d | 0 <= d < |texts|
      ensures texts[d] == Token(d) || '%' !in texts[d]
    {
      IntToStringAvoids(values[d], '%');
    }
    assert texts[i] == Token(i);
    ReplaceStep(ps, texts, i, IntToString(values[i]));
    assert texts[i := IntToString(values[i])] == SlotTexts(values, i + 1);
  }

  /** `gen_cmds`' substitution agrees with the single-pass reading on templates without `%%`. */
  lemma SubstituteMatchesTokens(cmd: string, values: seq<int>)
    requires NoDoublePercent(cmd)
    requires |values| <= 10
    ensures Substitute(cmd, values) == SubstituteTokens(cmd, values)
  {
    ReplaceLoopMatchesTokens(cmd, values, |values|);
  }

  /**
   * Substituting again, with any values for at most as many slots,
   * changes nothing: every placeholder is gone and no new one appears.
   */
  lemma {:induction false} SubstituteIdempotent(cmd: string, values: seq<int>, again: seq<int>)
    requires NoDoublePercent(cmd)
    requires |values| <= 10 && |again| <= |values|
    ensures Substitute(Substitute(cmd, values), again) == Substitute(cmd, values)
  {
    SubstituteMatchesTokens(cmd, values);
    SubstitutedStaysPut(cmd, values, again, |again|);
  }

  lemma {:induction false} SubstitutedStaysPut(cmd: string, values: seq<int>, again: seq<int>, j: nat)
    requires NoDoublePercent(cmd)
    requires |values| <= 10 && j <= |again| <= |values|
    ensures SubstituteUpTo(SubstituteTokens(cmd, values), again, j) == SubstituteTokens(cmd, values)
  {
    if j > 0 {
      SubstitutedStaysPut(cmd, values, again, j - 1);
      var texts := SlotTexts(values, |values|);
      var ps := Tokenize(cmd, |values|);
      TokenizeClear(cmd, |values|);
      forall d | 0 <= d < |texts|
        ensures texts[d] == Token(d) || '%' !in texts[d]
      {
        IntToStringAvoids(values[d], '%');
      }
      IntToStringAvoids(values[j - 1], '%');
      assert texts[j - 1] != Token(j - 1) by {
        assert Token(j - 1)[0] == '%';
      }
      ReplaceStep(ps, texts, j - 1, IntToString(again[j - 1]));
    }
  }

  /** A template in which no placeholder occurs comes back unchanged. */
  lemma {:induction false} SubstituteNoPlaceholders(cmd: string, values: seq<int>, i: nat)
    requires i <= |values|
    ensures (forall d :: 0 <= d < |values| ==> !Occurs(cmd, Token(d))) ==> SubstituteUpTo(cmd, values, i) == cmd
  {
    if i > 0 && forall d :: 0 <= d < |values| ==> !Occurs(cmd, Token(d)) {
      SubstituteNoPlaceholders(cmd, values, i - 1);
      ReplaceAbsent(cmd, Token(i - 1), IntToString(values[i - 1]));
    }
  }

  /** A substituted value never contains `%`, so it is never a placeholder itself. */
  lemma ValueTextHasNoMarker(v: int)
    ensures '%' !in IntToString(v)
  {
    IntToStringAvoids(v, '%');
  }

  // ---------------------------------------------------------------------
  // Concrete behaviour of the replace loop

  /** `%1` is replaced inside `%10` as well: the `0` stays behind. */
  lemma SlotOneInsideTen()
    ensures Substitute("%10", [5, 3]) == "30"
  {
    assert Token(0) == "%0" && Token(1) == "%1";
    assert IntToString(5) == "5" && IntToString(3) == "3";
    assert Replace("%10", "%0", "5") == "%10" by {
      assert "%10"[..2] == "%1";
      assert "%10"[1..] == "10";
      assert "10"[..2] == "10";
      assert "10"[1..] == "0";
    }
    assert Replace("%10", "%1", "3") == "30" by {
      assert "%10"[..2] == "%1";
      assert "%10"[2..] == "0";
    }
  }

  /**
   * With `%%` the replace loop and the single-pass reading part ways:
   * `%%0` with values `1, 7` first becomes `%1`, and the `1` just put in
   * is then taken for slot 1's placeholder.
   */
  lemma DoublePercentConsumesValue()
    ensures Substitute("%%0", [1, 7]) == "7"
    ensures SubstituteTokens("%%0", [1, 7]) == "%1"
  {
    assert Token(0) == "%0" && Token(1) == "%1";
    assert IntToString(1) == "1" && IntToString(7) == "7";
    assert Replace("%%0", "%0", "1") == "%1" by {
      assert "%%0"[..2] == "%%";
      assert "%%0"[1..] == "%0";
      assert "%0"[..2] == "%0";
      assert "%0"[2..] == "";
    }
    assert Replace("%1", "%1", "7") == "7" by {
      assert "%1"[..2] == "%1";
      assert "%1"[2..] == "";
    }
    assert "%%0"[1..] == "%0" && "%0"[2..] == "";
    assert IsDigit('0') && DigitValue('0') == 0;
    assert Tokenize("%%0", 2) == [Lit('%'), Slot(0)];
    var texts := SlotTexts([1, 7], 2);
    assert texts[0] == "1";
    assert [Lit('%'), Slot(0)][1..] == [Slot(0)];
  }

  /**
   * Re-substitution is not idempotent once `%%` appears: `%%1` with
   * values `5, 0` becomes `%0`, which a second pass turns into `5`.
   */
  lemma NotIdempotentWithDoublePercent()
    ensures Substitute("%%1", [5, 0]) == "%0"
    ensures Substitute(Substitute("%%1", [5, 0]), [5, 0]) == "5"
  {
    assert Token(0) == "%0" && Token(1) == "%1";
    assert IntToString(5) == "5" && IntToString(0) == "0";
    assert Replace("%%1", "%0", "5") == "%%1" by {
      assert "%%1"[..2] == "%%";
      assert "%%1"[1..] == "%1";
      assert "%1"[..2] == "%1";
      assert "%1"[1..] == "1";
    }
    assert Replace("%%1", "%1", "0") == "%0" by {
      assert "%%1"[..2] == "%%";
      assert "%%1"[1..] == "%1";
      assert "%1"[..2] == "%1";
      assert "%1"[2..] == "";
    }
    assert Replace("%0", "%0", "5") == "5" by {
      assert "%0"[..2] == "%0";
      assert "%0"[2..] == "";
    }
    assert Replace("5", "%1", "0") == "5";
  }
}

=== FILE: text.dfy ===
/**
 * The Python string operations the orchestrator relies on, over `string`
 * (a `seq<char>`): `str.replace`, `str.split` with an explicit separator,
 * `str.join` and `file.readlines`.
 */
module Text {

  /** `sub` occurs in `s` starting at index `i`. */
  predicate OccursAt(s: string, sub: string, i: nat)
  {
    i + |sub| <= |s| && s[i..i + |sub|] == sub
  }

  /** `sub` occurs somewhere in `s`. */
  predicate Occurs(s: string, sub: string)
  {
    exists i: nat | i <= |s| :: OccursAt(s, sub, i)
  }

  /** `s` is empty or its last character is `c`. */
  predicate EmptyOrEndsWith(s: string, c: char)
  {
    |s| == 0 || s[|s| - 1] == c
  }

  /**
   * Python's `s.replace(pattern, replacement)` for a non-empty pattern:
   * occurrences are found left to right and do not overlap; the text
   * that is inserted is never scanned again.
   */
  function Replace(s: string, pattern: string, replacement: string): string
    requires |pattern| > 0
    decreases |s|
  {
    if |s| < |pattern| then s
    else if s[..|pattern|] == pattern then replacement + Replace(s[|pattern|..], pattern, replacement)
    else [s[0]] + Replace(s[1..], pattern, replacement)
  }

  /**
   * Python's `s.split(sep)` for a non-empty separator: the pieces between
   * the non-overlapping occurrences of `sep`, found left to right.
   */
  function Split(s: string, sep: string): (parts: seq<string>)
    requires |sep| > 0
    ensures |parts| >= 1
    decreases |s|
  {
    if |s| < |sep| then [s]
    else if s[..|sep|] == sep then [""] + Split(s[|sep|..], sep)
    else
      var rest := Split(s[1..], sep);
      [[s[0]] + rest[0]] + rest[1..]
  }

  /** Python's `sep.join(parts)`. */
  function Join(sep: string, parts: seq<string>): string
  {
    if |parts| == 0 then ""
    else if |parts| == 1 then parts[0]
    else parts[0] + sep + Join(sep, parts[1..])
  }

  /** Python's `"".join(parts)`. */
  function Concat(parts: seq<string>): string
  {
    if |parts| == 0 then "" else parts[0] + Concat(parts[1..])
  }

  /** Appending a piece appends its text. */
  lemma {:induction false} ConcatAppend(parts: seq<string>, last: string)
    ensures Concat(parts + [last]) == Concat(parts) + last
    decreases |parts|
  {
    if |parts| > 0 {
      assert (parts + [last])[1..] == parts[1..] + [last];
      ConcatAppend(parts[1..], last);
    } else {
      assert parts + [last] == [last];
    }
  }

  /**
   * Python's `readlines()` on a file holding `s`: every line keeps its
   * terminating newline; a final piece without one is a line of its own.
   */
  function ReadLines(s: string): (lines: seq<string>)
    ensures |s| > 0 ==> |lines| > 0
  {
    if |s| == 0 then []
    else
      var rest := ReadLines(s[1..]);
      if s[0] == '\n' then [[s[0]]] + rest
      else if |rest| == 0 then [[s[0]]]
      else [[s[0]] + rest[0]] + rest[1..]
  }

  /** The lines put back together give the text: nothing is lost or added. */
  lemma {:induction false} ReadLinesConcat(s: string)
    ensures Concat(ReadLines(s)) == s
  {
    if |s| > 0 {
      var rest := ReadLines(s[1..]);
      ReadLinesConcat(s[1..]);
      if s[0] != '\n' && |rest| > 0 {
        assert Concat(rest) == rest[0] + Concat(rest[1..]);
        assert Concat(ReadLines(s)) == [s[0]] + rest[0] + Concat(rest[1..]);
      } else if s[0] == '\n' {
        assert Concat(ReadLines(s)) == [s[0]] + Concat(rest);
      }
      assert s == [s[0]] + s[1..];
    }
  }

  // ---------------------------------------------------------------------
  // Replace

  /** Dropping the first character cannot create an occurrence. */
  lemma NotOccursTail(s: string, sub: string)
    requires |s| > 0
    ensures !Occurs(s, sub) ==> !Occurs(s[1..], sub)
  {
    forall i: nat | OccursAt(s[1..], sub, i)
      ensures OccursAt(s, sub, i + 1)
    {
      assert s[1..][i..i + |sub|] == s[i + 1..i + 1 + |sub|];
    }
  }

  /** Replacing a pattern that does not occur leaves the text unchanged. */
  lemma {:induction false} ReplaceAbsent(s: string, pattern: string, replacement: string)
    requires |pattern| > 0
    requires !Occurs(s, pattern)
    ensures Replace(s, pattern, replacement) == s
    decreases |s|
  {
    if |s| >= |pattern| {
      assert !OccursAt(s, pattern, 0);
      NotOccursTail(s, pattern);
      ReplaceAbsent(s[1..], pattern, replacement);
      assert s == [s[0]] + s[1..];
    }
  }

  /**
   * A prefix that holds no character equal to the pattern's first
   * character passes through a replacement untouched.
   */
  lemma {:induction false} ReplaceSkipsPrefix(p: string, s: string, pattern: string, replacement: string)
    requires |pattern| > 0
    requires forall i :: 0 <= i < |p| ==> p[i] != pattern[0]
    ensures Replace(p + s, pattern, replacement) == p + Replace(s, pattern, replacement)
    decreases |p|
  {
    if |p| > 0 {
      var ps := p + s;
      ReplaceSkipsPrefix(p[1..], s, pattern, replacement);
      if |ps| < |pattern| {
        assert Replace(ps, pattern, replacement) == ps;
        assert Replace(s, pattern, replacement) == s;
      } else {
        assert ps[..|pattern|][0] != pattern[0];
        assert ps[1..] == p[1..] + s;
        calc {
          Replace(ps, pattern, replacement);
          [p[0]] + Replace(p[1..] + s, pattern, replacement);
          [p[0]] + (p[1..] + Replace(s, pattern, replacement));
          { assert p == [p[0]] + p[1..]; }
          p + Replace(s, pattern, replacement);
        }
      }
    } else {
      assert p + s == s;
    }
  }

  /** `Join` over a first piece that gains a leading character. */
  lemma JoinConsChar(sep: string, c: char, p: string, ps: seq<string>)
    ensures Join(sep, [[c] + p] + ps) == [c] + Join(sep, [p] + ps)
  {
    if |ps| > 0 {
      assert ([[c] + p] + ps)[1..] == ps;
      assert ([p] + ps)[1..] == ps;
    }
  }

  /** Replacing is splitting at the pattern and joining with the replacement. */
  lemma {:induction false} ReplaceIsJoinOfSplit(s: string, pattern: string, replacement: string)
    requires |pattern| > 0
    ensures Replace(s, pattern, replacement) == Join(replacement, Split(s, pattern))
    decreases |s|
  {
    if |s| < |pattern| {
    } else if s[..|pattern|] == pattern {
      ReplaceIsJoinOfSplit(s[|pattern|..], pattern, replacement);
      var rest := Split(s[|pattern|..], pattern);
      assert ([""] + rest)[1..] == rest;
    } else {
      ReplaceIsJoinOfSplit(s[1..], pattern, replacement);
      var rest := Split(s[1..], pattern);
      JoinConsChar(replacement, s[0], rest[0], rest[1..]);
      assert [rest[0]] + rest[1..] == rest;
    }
  }

  /** Joining the pieces of a split with the separator gives back the text. */
  lemma {:induction false} JoinSplit(s: string, sep: string)
    requires |sep| > 0
    ensures Join(sep, Split(s, sep)) == s
    decreases |s|
  {
    if |s| < |sep| {
    } else if s[..|sep|] == sep {
      JoinSplit(s[|sep|..], sep);
      var rest := Split(s[|sep|..], sep);
      assert Split(s, sep) == [""] + rest;
      assert ([""] + rest)[1..] == rest;
      assert Join(sep, [""] + rest) == "" + sep + Join(sep, rest);
      assert s == s[..|sep|] + s[|sep|..];
    } else {
      JoinSplit(s[1..], sep);
      var rest := Split(s[1..], sep);
      assert Split(s, sep) == [[s[0]] + rest[0]] + rest[1..];
      JoinConsChar(sep, s[0], rest[0], rest[1..]);
      assert [rest[0]] + rest[1..] == rest;
      assert s == [s[0]] + s[1..];
    }
  }

  // ---------------------------------------------------------------------
  // Split at a single character

  /** Text without the separator character splits into itself alone. */
  lemma {:induction false} SplitWithoutSeparator(s: string, c: char)
    requires c !in s
    ensures Split(s, [c]) == [s]
    decreases |s|
  {
    if |s| >= 1 {
      assert s[..1] == [s[0]];
      SplitWithoutSeparator(s[1..], c);
      assert s == [s[0]] + s[1..];
    }
  }

  /** A separator after a separator-free prefix ends the first piece. */
  lemma {:induction false} SplitAtFirstSeparator(a: string, c: char, b: string)
    requires c !in a
    ensures Split(a + [c] + b, [c]) == [a] + Split(b, [c])
    decreases |a|
  {
    var s := a + [c] + b;
    if |a| == 0 {
      assert s[..1] == [c];
      assert s[1..] == b;
    } else {
      assert s[..1] == [a[0]];
      assert s[1..] == a[1..] + [c] + b;
      SplitAtFirstSeparator(a[1..], c, b);
      assert a == [a[0]] + a[1..];
    }
  }

  /**
   * Splitting undoes joining: pieces free of the separator character come
   * back exactly.
   */
  lemma {:induction false} SplitJoin(parts: seq<string>, c: char)
    requires |parts| >= 1
    requires forall i :: 0 <= i < |parts| ==> c !in parts[i]
    ensures Split(Join([c], parts), [c]) == parts
    decreases |parts|
  {
    if |parts| == 1 {
      SplitWithoutSeparator(parts[0], c);
    } else {
      SplitJoin(parts[1..], c);
      SplitAtFirstSeparator(parts[0], c, Join([c], parts[1..]));
      assert [parts[0]] + parts[1..] == parts;
    }
  }

  // ---------------------------------------------------------------------
  // ReadLines

  /** A newline-free line followed by a newline reads back as that one line. */
  lemma {:induction false} ReadLinesOneLine(line: string)
    requires '\n' !in line
    ensures ReadLines(line + "\n") == [line + "\n"]
    decreases |line|
  {
    if |line| > 0 {
      assert (line + "\n")[1..] == line[1..] + "\n";
      ReadLinesOneLine(line[1..]);
      assert [line[0]] + (line[1..] + "\n") == line + "\n";
    } else {
      assert line + "\n" == "\n";
      assert "\n"[1..] == "";
    }
  }

  /** Lines of a text that ends with a newline are not merged with what follows. */
  lemma {:induction false} ReadLinesAppend(x: string, y: string)
    requires EmptyOrEndsWith(x, '\n')
    ensures ReadLines(x + y) == ReadLines(x) + ReadLines(y)
    decreases |x|
  {
    if |x| > 0 {
      assert (x + y)[1..] == x[1..] + y;
      assert (x + y)[0] == x[0];
      ReadLinesAppend(x[1..], y);
    } else {
      assert x + y == y;
    }
  }
}

=== FILE: variants.dfy ===
/**
 * `gen_cmds`: one concrete command and one output file name per tuple of
 * the Cartesian product of the modifier ranges.
 */
module Variants {
  import opened Wrappers
  import opened Text
  import opened Numerals
  import opened Seqs
  import opened CartesianProduct
  import opened Substitution

  /** A concrete command and the name of the file its output goes to. */
  datatype Variant = Variant(command: string, outName: string)

  /** `gen_cmds` asserts fewer than eleven modifiers; this is its `AssertionError`. */
  datatype GenError = TooManyModifiers

  /** The most modifiers `gen_cmds` accepts: slots `%0` to `%9`. */
  const MaxModifiers: nat := 10

  /** `"".join(["_" + str(v) for v in values])`. */
  function Suffix(values: seq<int>): string
  {
    if |values| == 0 then "" else "_" + IntToString(values[0]) + Suffix(values[1..])
  }

  /** Output file name of one tuple: `"mp" + suffix + ".out"`. */
  function OutName(values: seq<int>): (name: string)
    ensures |name| >= 6 && name[..2] == "mp" && name[|name| - 4..] == ".out"
  {
    "mp" + Suffix(values) + ".out"
  }

  /**
   * `gen_cmds(cmd, modifiers)` as the list of what it yields: `None`
   * modifiers give the command unchanged with `mp.out`.
   */
  function GenCmds(cmd: string, modifiers: Option<seq<seq<int>>>): (r: Result<seq<Variant>, GenError>)
    ensures modifiers.None? ==> r == Ok([Variant(cmd, "mp.out")])
    ensures modifiers.Some? ==> (r.Err? <==> |modifiers.value| > MaxModifiers)
  {
    match modifiers
    case None => Ok([Variant(cmd, "mp.out")])
    case Some(ranges) =>
      if |ranges| > MaxModifiers then Err(TooManyModifiers)
      else
        var tuples := Product(ranges);
        Ok(seq(|tuples|, k requires 0 <= k < |tuples| => Variant(Substitute(cmd, tuples[k]), OutName(tuples[k]))))
  }

  // ---------------------------------------------------------------------
  // Reading the values back from a file name

  /** The values written into a suffix, or `None` if it is not one. */
  function DecodeSuffix(m: string): Option<seq<int>>
  {
    if |m| == 0 then Some([])
    else
      var parts := Split(m, "_");
      if parts[0] != "" then None
      else match ParseInts(parts[1..])
        case Ok(vs) => Some(vs)
        case Err(_) => None
  }

  /** The values an output file name was made from, or `None` if it is not such a name. */
  function DecodeName(name: string): Option<seq<int>>
  {
    if |name| >= 6 && name[..2] == "mp" && name[|name| - 4..] == ".out" then DecodeSuffix(name[2..|name| - 4])
    else None
  }

  lemma {:induction false} SuffixIsJoin(values: seq<int>)
    requires |values| >= 1
    ensures Suffix(values) == "_" + Join("_", Strs(values))
    decreases |values|
  {
    if |values| > 1 {
      SuffixIsJoin(values[1..]);
      assert Strs(values)[1..] == Strs(values[1..]);
    }
  }

  lemma {:induction false} StrsAvoid(values: seq<int>, c: char)
    requires !IsDigit(c) && c != '-'
    ensures forall i :: 0 <= i < |Strs(values)| ==> c !in Strs(values)[i]
    decreases |values|
  {
    if |values| > 0 {
      StrsAvoid(values[1..], c);
      IntToStringAvoids(values[0], c);
      assert forall i :: 1 <= i < |values| ==> Strs(values)[i] == Strs(values[1..])[i - 1];
    }
  }

  /** The suffix of a tuple reads back as that tuple. */
  lemma SuffixRoundTrip(values: seq<int>)
    ensures DecodeSuffix(Suffix(values)) == Some(values)
  {
    if |values| > 0 {
      SuffixIsJoin(values);
      var parts := [""] + Strs(values);
      StrsAvoid(values, '_');
      assert Join("_", parts) == "" + "_" + Join("_", Strs(values));
      SplitJoin(parts, '_');
      assert parts[1..] == Strs(values);
      ParseIntsOfStrs(values);
    }
  }

  /** Every output file name reads back as the tuple it was made from. */
  lemma OutNameRoundTrip(values: seq<int>)
    ensures DecodeName(OutName(values)) == Some(values)
  {
    var name := OutName(values);
    assert name[..2] == "mp";
    assert name[|name| - 4..] == ".out";
    assert name[2..|name| - 4] == Suffix(values);
    SuffixRoundTrip(values);
  }

  /** Different tuples never share an output file. */
  lemma OutNameInjective(a: seq<int>, b: seq<int>)
    requires OutName(a) == OutName(b)
    ensures a == b
  {
    OutNameRoundTrip(a);
    OutNameRoundTrip(b);
  }

  // ---------------------------------------------------------------------
  // Properties of the generated variants

  /**
   * Variant `k` is tuple `k` of the product: its command is the template
   * with that tuple substituted and its file name carries that tuple.
   */
  lemma GenCmdsVariant(cmd: string, ranges: seq<seq<int>>, k: int)
    requires |ranges| <= MaxModifiers
    requires 0 <= k < ProdLen(ranges)
    ensures GenCmds(cmd, Some(ranges)).Ok?
    ensures |GenCmds(cmd, Some(ranges)).value| == ProdLen(ranges)
    ensures k < |Product(ranges)|
    ensures GenCmds(cmd, Some(ranges)).value[k].command == Substitute(cmd, Product(ranges)[k])
    ensures DecodeName(GenCmds(cmd, Some(ranges)).value[k].outName) == Some(Product(ranges)[k])
  {
    OutNameRoundTrip(Product(ranges)[k]);
  }

  /** As many variants as the product of the range lengths. */
  lemma GenCmdsCount(cmd: string, ranges: seq<seq<int>>)
    requires |ranges| <= MaxModifiers
    ensures GenCmds(cmd, Some(ranges)).Ok?
    ensures |GenCmds(cmd, Some(ranges)).value| == ProdLen(ranges)
  {
  }

  /**
   * The file names, read back, are exactly the tuples that pick one value
   * from each range: none is missed and none is made up.
   */
  lemma GenCmdsCoverProduct(cmd: string, ranges: seq<seq<int>>, t: seq<int>)
    requires |ranges| <= MaxModifiers
    ensures var vs := GenCmds(cmd, Some(ranges)).value;
            InRanges(t, ranges) <==> exists k :: 0 <= k < |vs| && DecodeName(vs[k].outName) == Some(t)
  {
    var vs := GenCmds(cmd, Some(ranges)).value;
    var tuples := Product(ranges);
    ProductMembership(ranges, t);
    if InRanges(t, ranges) {
      var k :| 0 <= k < |tuples| && tuples[k] == t;
      OutNameRoundTrip(t);
      assert DecodeName(vs[k].outName) == Some(t);
    }
    if exists k :: 0 <= k < |vs| && DecodeName(vs[k].outName) == Some(t) {
      var k :| 0 <= k < |vs| && DecodeName(vs[k].outName) == Some(t);
      OutNameRoundTrip(tuples[k]);
      assert tuples[k] == t;
    }
  }

  /** When no range repeats a value, no two variants write to the same file. */
  lemma GenCmdsDistinctNames(cmd: string, ranges: seq<seq<int>>)
    requires |ranges| <= MaxModifiers
    requires forall i :: 0 <= i < |ranges| ==> Distinct(ranges[i])
    ensures var vs := GenCmds(cmd, Some(ranges)).value;
            forall i, j :: 0 <= i < j < |vs| ==> vs[i].outName != vs[j].outName
  {
    var vs := GenCmds(cmd, Some(ranges)).value;
    var tuples := Product(ranges);
    ProductDistinct(ranges);
    forall i, j | 0 <= i < j < |vs|
      ensures vs[i].outName != vs[j].outName
    {
      if vs[i].outName == vs[j].outName {
        OutNameInjective(tuples[i], tuples[j]);
      }
    }
  }

  /**
   * On a template without `%%`, every variant's command is the
   * single-pass substitution of its tuple.
   */
  lemma GenCmdsCommandsAreTokenSubstitutions(cmd: string, ranges: seq<seq<int>>)
    requires |ranges| <= MaxModifiers
    requires NoDoublePercent(cmd)
    ensures var vs := GenCmds(cmd, Some(ranges)).value;
            forall k :: 0 <= k < |vs| ==> vs[k].command == SubstituteTokens(cmd, Product(ranges)[k])
  {
    var tuples := Product(ranges);
    forall k | 0 <= k < |tuples|
      ensures Substitute(cmd, tuples[k]) == SubstituteTokens(cmd, tuples[k])
    {
      ProductMembership(ranges, tuples[k]);
      SubstituteMatchesTokens(cmd, tuples[k]);
    }
  }

  /** A template without placeholders is the command of every variant. */
  lemma GenCmdsWithoutPlaceholders(cmd: string, ranges: seq<seq<int>>)
    requires |ranges| <= MaxModifiers
    requires forall d :: 0 <= d < |ranges| ==> !Occurs(cmd, Token(d))
    ensures var vs := GenCmds(cmd, Some(ranges)).value;
            forall k :: 0 <= k < |vs| ==> vs[k].command == cmd
  {
    var tuples := Product(ranges);
    forall k | 0 <= k < |tuples|
      ensures Substitute(cmd, tuples[k]) == cmd
    {
      ProductMembership(ranges, tuples[k]);
      SubstituteNoPlaceholders(cmd, tuples[k], |tuples[k]|);
    }
  }
}

=== FILE: wrappers.dfy ===
/** Failure-carrying results, used wherever the Python code raises. */
module Wrappers {

  /** A value that may be missing. */
  datatype Option<+T> = None | Some(value: T)

  /** Either a value or the error the Python code would raise instead. */
  datatype Result<+T, +E> = Ok(value: T) | Err(error: E)
}
